=== FILE: README.md ===
# GitHub activity analytics — a Dafny model of its store semantics

The service ingests one GitHub repository at a time into a Postgres store
and serves a dashboard over what it stored:

- three tables: repositories, accounts (users) and commits;
- the ingestion script and its three writes: upsert a repository, upsert a
  linked account, insert a commit unless its sha is already stored;
- the dashboard's read queries: the KPI summary, the commits-per-day
  series and the repository table;
- the dashboard's management writes: untrack a repository (its commits go
  with it), pause or resume it, pin or unpin it.

This project models those SQL statements as pure transitions over an
immutable store (`Schema.Store`: repositories and accounts keyed by id,
commits keyed by sha). A write either yields the new store or an error, and the
error says where it comes from. An unparseable timestamp (`BadTimestamp`)
is raised by the date parser while the statement's parameters are built,
before the statement runs. A new commit whose repository is missing
(`ForeignKeyViolation`) is raised by the database. An unknown repository
name (`NotFound`) is the 404 the endpoints raise after their lookup or
write matched no row. The queries rest on
reference definitions: which commits a windowed, active-only count counts,
which days form groups, which repositories a search lists. The summary's
four totals are the sizes of these reference sets. The latest ingestion
stamp, the top repository, the busiest day, the day series and the
repository table are computed by methods and proved against their
definitions.

Time is integer epoch seconds in UTC. `NOW()` is constant within one
transaction, so it is the parameter `now`. Day truncation is `Schema.DayOf`.
The HTTP fetches of the ingestion script are parameters too: the fetched
repository and the fetched commit list.

The files are:

- `wrappers.dfy`: Option and Result.
- `collections.dfy`: facts about finite sets and maps shared by the proofs.
- `schema.dfy`: the rows, the store, the referential invariant `Valid`.
- `github_json.dfy`: the fetched JSON values and the two timestamp rules.
- `github_store.dfy`: the three writes.
- `ingest_github.dfy`: the transaction.
- `analytics.dfy`: the reference definitions of every query.
- `dashboard.dfy`: the query methods.
- `repo_management.dfy`: the management writes.
- `scenarios.dfy`: properties that span writes and queries.

The series is not zero-filled: `GROUP BY day ORDER BY day` returns only
the days that have commits (`Analytics.IsSeries`).

## Model

| member | source | states |
|---|---|---|
| Schema.DayOf | app/routes/dashboard.py:55 | the day a timestamp falls on is the one whose 86400-second interval contains it |
| GithubJson.RepoStamp | app/github_store.py:39-41 | a falsy value binds NULL; a truthy string that parses binds its instant, and a failed parse is an error; a truthy non-string is an error |
| GithubJson.CommitStamp | app/github_store.py:77-78 | only strings are parsed: one that parses binds its instant, and the empty string fails; every non-string, null included, binds NULL |
| GithubStore.UpsertRepo | app/github_store.py:4-43 | fails exactly when a timestamp fails, and then with the parse error; afterwards the row with the fetched id carries the fetched metadata and `last_ingested_at = now`; an update keeps `is_active`/`is_pinned`, an insert takes the defaults; no other row or table changes; the row count grows by one only for a new id; referential validity is kept |
| GithubStore.UpsertRepoIdempotent | app/github_store.py:15-27 | repeating the upsert at the same instant changes nothing more |
| GithubStore.UpsertUser | app/github_store.py:45-65 | a falsy account changes nothing and yields no id; a linked account's row is inserted or overwritten, is stamped `now`, and its id is returned; other accounts are untouched |
| GithubStore.CommitRowOf | app/github_store.py:74-106 | the row carries the sha, the repository id and the linked account ids (NULL for a falsy account); it keeps the author's and the committer's free-text names and emails even without a linked account, and the message; its `committed_at` is the parsed committer date, NULL exactly when the committer or its date is missing or the date is not a string; the URL prefers a non-empty `html_url`; `ingested_at` is `now` |
| GithubStore.InsertRow | app/github_store.py:80-107 | a stored sha leaves the store unchanged; a new sha whose repository is absent is a foreign-key error; otherwise exactly one row is added and nothing else changes |
| GithubStore.InsertCommit | app/github_store.py:67-107 | fails exactly on a bad committer date, or on a new sha whose repository is absent; the error is the parse error whenever the date is bad, since the date is parsed before the statement runs, and the foreign-key error otherwise; the accounts are written even for a duplicate sha; a duplicate leaves the commits unchanged; a new sha adds exactly one row; referential validity is kept |
| GithubStore.DuplicateShaStillUpsertsUsers | app/github_store.py:67-92 | on a concrete store, re-inserting a stored sha adds its new author account but no commit |
| IngestGithub.InsertAll | ingestion/ingest_github.py:160-161 | the loop succeeds only if every date parses, and does succeed when they parse and the repository exists; it fails only with a parse or a foreign-key error, and only with a parse error when the repository exists; it leaves repositories alone; it writes the batch's accounts, a later write winning; it keeps every stored commit and adds exactly the batch's shas, each stored as the row the first item carrying it binds (`ON CONFLICT DO NOTHING` drops later duplicates) |
| IngestGithub.InsertAllNeedsRepo | ingestion/ingest_github.py:160-161 | without the repository row the loop succeeds only if every sha is already stored, so the success condition of `InsertAll` is exact |
| IngestGithub.ShasOfCard | ingestion/ingest_github.py:164 | a batch holds no more distinct shas than items, so the processed count bounds the rows inserted |
| IngestGithub.Main | ingestion/ingest_github.py:152-164 | any error rolls the whole transaction back; the run succeeds exactly when the repository's and every commit's timestamps parse, and otherwise fails with the parse error (the repository row is written first, so the foreign key never fails); on success it reports the repository and the item count, the repository row is fresh and the other repositories are untouched, the commits gained are exactly the batch's new shas, each stored as the row of the first item carrying it, and referential validity is kept |
| IngestGithub.InsertAllKnownShas | ingestion/ingest_github.py:160-161 | a batch of already-stored shas changes only the accounts |
| IngestGithub.InsertAllIdempotent | ingestion/ingest_github.py:160-161 | re-inserting a batch that was inserted changes nothing |
| IngestGithub.MainIdempotent | ingestion/ingest_github.py:152-164 | re-running the script with the same fetched data at the same instant reports the same and leaves the store unchanged |
| Analytics.ActiveDayHasCommits | app/routes/dashboard.py:127-139 | a day forms a group if and only if its count is at least one |
| Analytics.SeriesCountsPositive | app/routes/dashboard.py:127-139 | no row of the series has a zero count |
| Analytics.TotalCountOnDays | app/routes/dashboard.py:127-139 | the counts of increasing, exactly counted rows sum to the number of counted commits on their days |
| Analytics.SeriesSum | app/routes/dashboard.py:127-139 | the series' counts sum to the windowed active-only commit count |
| Analytics.SameDaysSameSeries | app/routes/dashboard.py:127-139 | two increasing, exactly counted series over the same days are equal |
| Analytics.SeriesUnique | app/routes/dashboard.py:127-139 | the grouped, ordered result is determined by the store, the instant and the window |
| Analytics.WindowShasMonotone | app/routes/dashboard.py:28-34 | the 7-day commits are among the 30-day ones, and neither count exceeds the commit total |
| Analytics.TopNameHasCommits | app/routes/dashboard.py:40-50 | a name forms a top-repository group if and only if it has a commit in the window |
| Analytics.RanksTotal | app/routes/dashboard.py:179 | the table order compares any two rows |
| Analytics.RanksTransitive | app/routes/dashboard.py:179 | the table order is transitive |
| Analytics.NoSearchListsAll | app/routes/dashboard.py:178 | with no search, or an empty one, every repository (active or paused) is listed |
| Analytics.SearchIgnoresCase | app/routes/dashboard.py:178 | case-folding the search or the name does not change the match |
| Dashboard.LatestIngestion | app/routes/dashboard.py:37 | NULL if no active repository has been stamped, otherwise the largest stamp among active repositories |
| Dashboard.TopRepo | app/routes/dashboard.py:40-50 | none if no commit falls in the window, otherwise a name with the most window commits, paused repositories included, with its count |
| Dashboard.MostActiveDay | app/routes/dashboard.py:53-66 | none if no active repository's commit falls in the window, otherwise a day with the most such commits, with its count |
| Dashboard.DashboardSummary | app/routes/dashboard.py:12-78 | the counts equal the reference counts (the commit total ignores the active flag and the window); 7-day count ≤ 30-day count ≤ total; the latest stamp, top repository and busiest day as above |
| Dashboard.BuildSeries | app/routes/dashboard.py:127-139 | the result is the day series: one row per day with a counted commit, in increasing order, each with that day's count |
| Dashboard.CommitsTimeseries | app/routes/dashboard.py:81-141 | a non-empty unknown name is NotFound; otherwise the result is the series over all active repositories, whether or not a name was given |
| Dashboard.RepoTimeseries | app/routes/dashboard.py:81-141 | as above, except that a known name yields the series of one repository with that name |
| Dashboard.PickTop | app/routes/dashboard.py:179-180 | picks a candidate that ranks at least as high as every candidate |
| Dashboard.ReposTable | app/routes/dashboard.py:144-188 | the number of rows is the smaller of the limit and the number of matching repositories; rows are distinct matching repositories with their window counts, paused ones included; rows are in table order; no matching repository left out ranks above a shown one |
| RepoManagement.UntrackRepo | app/routes/dashboard.py:190-210 | an unknown name is NotFound and changes nothing; otherwise exactly the rows with that name go, with exactly their commits (cascade); accounts stay; referential validity is kept |
| RepoManagement.UntrackShrinks | app/routes/dashboard.py:197-207 | a successful untrack removes at least one repository |
| RepoManagement.SetRepoActive | app/routes/dashboard.py:212-232 | an unknown name is NotFound; otherwise only `is_active` of the named rows changes, and commits and accounts are untouched |
| RepoManagement.SetRepoPinned | app/routes/dashboard.py:235-255 | an unknown name is NotFound; otherwise only `is_pinned` of the named rows changes, and commits and accounts are untouched |
| RepoManagement.SetRepoActiveIdempotent | app/routes/dashboard.py:212-232 | setting the active flag twice equals setting it once |
| RepoManagement.SetRepoPinnedIdempotent | app/routes/dashboard.py:235-255 | setting the pinned flag twice equals setting it once |
| RepoManagement.PinThenUnpinRestores | app/routes/dashboard.py:235-255 | pinning unpinned repositories and then unpinning them restores the store |
| RepoManagement.PauseThenResumeRestores | app/routes/dashboard.py:212-232 | pausing active repositories and then resuming them restores the store; pausing hides without deleting |
| RepoManagement.ActiveAndPinnedCommute | app/routes/dashboard.py:212-255 | the two flags are independent: setting them in either order gives the same store |
| Scenarios.PauseDropsFromActiveCounts | app/routes/dashboard.py:28-34 | pausing removes exactly the paused repositories' commits from every active-only count |
| Scenarios.PauseKeepsTopRepoAndTable | app/routes/dashboard.py:40-50 | the top-repository groups, the table's per-repository counts and the listed repositories are unaffected by pausing |
| Scenarios.UntrackRemovesFromMetrics | app/routes/dashboard.py:190-210 | after untracking, the name has no repository, no top-repository group and no listed row |
| Scenarios.IngestGrowthBounded | ingestion/ingest_github.py:160-164 | a run never removes commits and adds at most as many as it reports processed |
| Scenarios.FirstIngest | ingestion/ingest_github.py:152-161 | the first run into an empty store leaves one repository, active, unpinned and listed, owning every commit |
| Scenarios.FirstIngestWindow | ingestion/ingest_github.py:152-161 | after the first run into an empty store, the table's window count for the ingested repository is the number of distinct fetched shas whose first item's committer date is in the window |
| Scenarios.DrillDownCountsOtherRepos | app/routes/dashboard.py:108-122 | on a concrete store, the series returned for one repository's name includes another repository's commit, and differs from that repository's own series |

## Left out

- The HTTP fetches of the ingestion script (`fetch_repo`, `fetch_commits`) and its printed report. The fetched values are parameters, and the report is the `IngestReport` value.
- The copies of `upsert_repo`, `upsert_user` and `insert_commit` in `ingestion/ingest_github.py` (lines 34-149). They match `app/github_store.py` and are modelled once.
- `NOW()` and the session time zone. `now` is `NOW()` rounded up to a whole second, which makes the window test `committed_at >= NOW() - INTERVAL` exact for GitHub's whole-second dates. The session time zone is taken to be UTC, so `DATE_TRUNC('day', …)` is `Schema.DayOf`.
- `dateutil` parsing. A timestamp string is abstracted as either a parsed instant or a string that fails to parse, and time zones are taken as already resolved to UTC.
- A `KeyError` on a missing required JSON key (`id`, `sha`, `commit`, …). The fetched values are modelled as records that carry those keys.
- The FastAPI plumbing: routing, sessions, JSON serialisation, the echoed `scope`, `days`, `limit` and `search` fields, and the 422 response for `days` or `limit` outside its range. The query methods take the range as a precondition.
- The database schema file is not part of this model. The insert defaults `is_active = TRUE` and `is_pinned = FALSE` are assumed (`Schema.DefaultActive`, `Schema.DefaultPinned`). A UNIQUE constraint on `full_name` is not assumed, so the management writes act on every row with the name. No UNIQUE constraint on `users.login` is assumed either, so `Schema.User` rows may share a login and `GithubStore.UpsertUser` never fails. The `commits.repo_id` foreign key with `ON DELETE CASCADE` is modelled.
- Account deletion and the account foreign keys of commits. No modelled statement deletes accounts.
- ILIKE pattern syntax inside the search string and non-ASCII case folding. The wildcards `%` and `_` and the default escape character `\` are taken literally. The search is a case-insensitive ASCII substring test.
- Dashboard.TopRepo: Postgres breaks ties between equal counts in an unspecified way. The contract accepts any name with the largest count.
- Dashboard.MostActiveDay: ties are likewise unspecified, and the contract accepts any day with the largest count.
- Dashboard.ReposTable: rows that tie on all four sort keys come out in an unspecified order. The contract fixes the order only up to such ties.

## Findings

| source | as written | input that shows it | evidently intended | confidence | as-written member | corrected member |
|---|---|---|---|---|---|---|
| app/routes/dashboard.py:108-122 | with a known `full_name`, `repo_id` is bound as a parameter, but the query never filters on it, so the series counts every active repository | repositories 1 (`o/a`) and 2 (`o/b`), both active, and one commit of repository 2 committed now; asking for `o/a` returns one row with count 1 instead of an empty series | the drill-down counts only the named repository's commits (`AND c.repo_id = :repo_id`) | not executed | Dashboard.CommitsTimeseries, Scenarios.DrillDownCountsOtherRepos | Dashboard.RepoTimeseries |

=== FILE: analytics.dfy ===
/**
 * Reference definitions for the dashboard's read queries: which commits a
 * time window and the active-repository join keep, how they bucket into UTC
 * days, what a correct day series and a correct KPI answer are, and how the
 * repository table ranks and filters its rows. The queries in `Dashboard`
 * are specified against these.
 */
module Analytics {
  import opened Wrappers
  import opened Schema
  import opened Collections

  /** `c.committed_at >= NOW() - INTERVAL '<days> days'`. A NULL timestamp
      compares to nothing, so such a commit is in no window. */
  predicate InWindow(c: Commit, now: Timestamp, days: int) {
    c.committedAt.Some? && c.committedAt.value >= now - days * SecondsPerDay
  }

  /** Which commits a day series counts: those of every active repository,
      or only those of one repository that is also active. */
  datatype Scope = AllActive | OnlyRepo(id: int)

  /** `JOIN repos r ON r.id = c.repo_id WHERE r.is_active = TRUE` plus the
      window, and the repository restriction when the scope has one. */
  predicate Counted(db: Store, now: Timestamp, days: int, scope: Scope, c: Commit) {
    && c.repoId in db.repos
    && db.repos[c.repoId].isActive
    && InWindow(c, now, days)
    && (scope.OnlyRepo? ==> c.repoId == scope.id)
  }

  /** The commits a windowed, active-only count counts. */
  function WindowShas(db: Store, now: Timestamp, days: int, scope: Scope): set<string> {
    set sha | sha in db.commits && Counted(db, now, days, scope, db.commits[sha])
  }

  /** The UTC day a dated commit falls on. */
  function CommitDay(c: Commit): int
    requires c.committedAt.Some?
  {
    DayOf(c.committedAt.value)
  }

  /** The counted commits falling on one of the days `ds`. */
  function ShasOnDays(db: Store, now: Timestamp, days: int, scope: Scope, ds: set<int>): set<string> {
    set sha | sha in db.commits && Counted(db, now, days, scope, db.commits[sha])
                && CommitDay(db.commits[sha]) in ds
  }

  /** `COUNT(*)` of one `GROUP BY day` group. */
  function DayCommits(db: Store, now: Timestamp, days: int, scope: Scope, d: int): nat {
    |ShasOnDays(db, now, days, scope, {d})|
  }

  /** The days on which at least one counted commit falls: the groups the
      `GROUP BY day` produces. */
  function ActiveDays(db: Store, now: Timestamp, days: int, scope: Scope): set<int> {
    set sha | sha in db.commits && Counted(db, now, days, scope, db.commits[sha]) :: CommitDay(db.commits[sha])
  }

  /** One row of a day series. */
  datatype DayCount = DayCount(day: int, commitCount: nat)

  function SeriesDays(s: seq<DayCount>): set<int> {
    set i | 0 <= i < |s| :: s[i].day
  }

  predicate Increasing(s: seq<DayCount>) {
    forall i, j :: 0 <= i < j < |s| ==> s[i].day < s[j].day
  }

  /** What `GROUP BY day ORDER BY day` returns: one row per day that has a
      counted commit, in increasing day order, with that day's count. Days
      without commits are absent, not zero-filled. */
  predicate IsSeries(db: Store, now: Timestamp, days: int, scope: Scope, s: seq<DayCount>) {
    && Increasing(s)
    && (forall i :: 0 <= i < |s| ==> s[i].commitCount == DayCommits(db, now, days, scope, s[i].day))
    && SeriesDays(s) == ActiveDays(db, now, days, scope)
  }

  function TotalCount(s: seq<DayCount>): nat {
    if |s| == 0 then 0 else s[0].commitCount + TotalCount(s[1..])
  }

  /** A day has a group exactly when some counted commit falls on it. */
  lemma ActiveDayHasCommits(db: Store, now: Timestamp, days: int, scope: Scope, d: int)
    ensures d in ActiveDays(db, now, days, scope) <==> DayCommits(db, now, days, scope, d) >= 1
  {
    if d in ActiveDays(db, now, days, scope) {
      var sha :| sha in db.commits && Counted(db, now, days, scope, db.commits[sha])
                 && CommitDay(db.commits[sha]) == d;
      assert sha in ShasOnDays(db, now, days, scope, {d});
    }
    if DayCommits(db, now, days, scope, d) >= 1 {
      var sha :| sha in ShasOnDays(db, now, days, scope, {d});
      assert CommitDay(db.commits[sha]) == d;
    }
  }

  /** Every count in a series is at least one. */
  lemma SeriesCountsPositive(db: Store, now: Timestamp, days: int, scope: Scope, s: seq<DayCount>)
    requires IsSeries(db, now, days, scope, s)
    ensures forall i :: 0 <= i < |s| ==> s[i].commitCount >= 1
  {
    forall i | 0 <= i < |s| ensures s[i].commitCount >= 1 {
      assert s[i].day in SeriesDays(s);
      ActiveDayHasCommits(db, now, days, scope, s[i].day);
    }
  }

  lemma SeriesDaysCons(s: seq<DayCount>)
    requires |s| > 0
    ensures SeriesDays(s) == {s[0].day} + SeriesDays(s[1..])
  {
    forall d | d in SeriesDays(s) ensures d in {s[0].day} + SeriesDays(s[1..]) {
      var i :| 0 <= i < |s| && s[i].day == d;
      if i > 0 { assert s[1..][i - 1].day == d; }
    }
    forall d | d in SeriesDays(s[1..]) ensures d in SeriesDays(s) {
      var i :| 0 <= i < |s[1..]| && s[1..][i].day == d;
      assert s[i + 1].day == d;
    }
  }

  lemma NoDaysNoRows(s: seq<DayCount>)
    ensures SeriesDays(s) == {} <==> |s| == 0
  {
    if |s| > 0 {
      assert s[0].day in SeriesDays(s);
    }
  }

  /** The head of an increasing series lies below every later day, and the
      rest of it is increasing too. */
  lemma IncreasingTail(s: seq<DayCount>)
    requires Increasing(s) && |s| > 0
    ensures Increasing(s[1..])
    ensures forall d :: d in SeriesDays(s[1..]) ==> s[0].day < d
    ensures SeriesDays(s) == {s[0].day} + SeriesDays(s[1..])
    ensures s[0].day !in SeriesDays(s[1..])
  {
    var t := s[1..];
    forall i, j | 0 <= i < j < |t| ensures t[i].day < t[j].day {
      assert t[i] == s[i + 1] && t[j] == s[j + 1];
    }
    forall d | d in SeriesDays(t) ensures s[0].day < d {
      var i :| 0 <= i < |t| && t[i].day == d;
      assert t[i] == s[i + 1];
    }
    SeriesDaysCons(s);
  }

  lemma ShasOnDaysSplit(db: Store, now: Timestamp, days: int, scope: Scope, d: int, ds: set<int>)
    requires d !in ds
    ensures ShasOnDays(db, now, days, scope, {d} + ds)
         == ShasOnDays(db, now, days, scope, {d}) + ShasOnDays(db, now, days, scope, ds)
    ensures ShasOnDays(db, now, days, scope, {d}) !! ShasOnDays(db, now, days, scope, ds)
  {
  }

  /** The counts of an increasing series of exact day counts add up to the
      number of counted commits on its days. */
  lemma {:induction false} TotalCountOnDays(db: Store, now: Timestamp, days: int, scope: Scope, s: seq<DayCount>)
    requires Increasing(s)
    requires forall i :: 0 <= i < |s| ==> s[i].commitCount == DayCommits(db, now, days, scope, s[i].day)
    ensures TotalCount(s) == |ShasOnDays(db, now, days, scope, SeriesDays(s))|
  {
    if |s| == 0 {
      assert ShasOnDays(db, now, days, scope, SeriesDays(s)) == {};
    } else {
      var t := s[1..];
      IncreasingTail(s);
      TotalCountOnDays(db, now, days, scope, t);
      ShasOnDaysSplit(db, now, days, scope, s[0].day, SeriesDays(t));
    }
  }

  /** A series accounts for every counted commit exactly once: its counts
      sum to the windowed active-only commit count. */
  lemma SeriesSum(db: Store, now: Timestamp, days: int, scope: Scope, s: seq<DayCount>)
    requires IsSeries(db, now, days, scope, s)
    ensures TotalCount(s) == |WindowShas(db, now, days, scope)|
  {
    TotalCountOnDays(db, now, days, scope, s);
    assert ShasOnDays(db, now, days, scope, ActiveDays(db, now, days, scope)) == WindowShas(db, now, days, scope);
  }

  /** Two increasing series over the same days with the same per-day counts
      are the same series. */
  lemma {:induction false} SameDaysSameSeries(db: Store, now: Timestamp, days: int, scope: Scope, a: seq<DayCount>, b: seq<DayCount>)
    requires Increasing(a) && Increasing(b)
    requires SeriesDays(a) == SeriesDays(b)
    requires forall i :: 0 <= i < |a| ==> a[i].commitCount == DayCommits(db, now, days, scope, a[i].day)
    requires forall i :: 0 <= i < |b| ==> b[i].commitCount == DayCommits(db, now, days, scope, b[i].day)
    ensures a == b
  {
    NoDaysNoRows(a);
    NoDaysNoRows(b);
    if |a| > 0 && |b| > 0 {
      assert a[0].day in SeriesDays(b) && b[0].day in SeriesDays(a);
      IncreasingTail(a);
      IncreasingTail(b);
      assert a[0].day == b[0].day;
      assert SeriesDays(a[1..]) == SeriesDays(b[1..]);
      SameDaysSameSeries(db, now, days, scope, a[1..], b[1..]);
      assert a == [a[0]] + a[1..] && b == [b[0]] + b[1..];
    }
  }

  /** The day series is determined by the data: at most one sequence meets
      `IsSeries`. */
  lemma SeriesUnique(db: Store, now: Timestamp, days: int, scope: Scope, a: seq<DayCount>, b: seq<DayCount>)
    requires IsSeries(db, now, days, scope, a) && IsSeries(db, now, days, scope, b)
    ensures a == b
  {
    SameDaysSameSeries(db, now, days, scope, a, b);
  }

  /** A shorter window counts a subset of a longer one's commits. */
  lemma WindowShasMonotone(db: Store, now: Timestamp, short: int, long: int, scope: Scope)
    requires short <= long
    ensures WindowShas(db, now, short, scope) <= WindowShas(db, now, long, scope)
    ensures |WindowShas(db, now, short, scope)| <= |WindowShas(db, now, long, scope)| <= |db.commits|
  {
    var a := WindowShas(db, now, short, scope);
    var b := WindowShas(db, now, long, scope);
    forall sha | sha in a ensures sha in b {
      assert short * SecondsPerDay <= long * SecondsPerDay;
    }
    assert b <= db.commits.Keys;
    SubsetCard(a, b);
    SubsetCard(b, db.commits.Keys);
  }

  // ---- summary KPIs -------------------------------------------------------

  /** `SELECT COUNT(*) FROM repos WHERE is_active = TRUE`. */
  function ActiveRepoIds(db: Store): set<int> {
    set id | id in db.repos && db.repos[id].isActive
  }

  /** `MAX(last_ingested_at)` over active repositories, NULLs ignored: NULL
      when no active repository has been stamped. */
  predicate IsLatestIngestion(db: Store, r: Option<Timestamp>) {
    && (r.None? <==>
          forall id :: id in db.repos && db.repos[id].isActive ==> db.repos[id].lastIngestedAt.None?)
    && (r.Some? ==>
          && (exists id :: id in db.repos && db.repos[id].isActive && db.repos[id].lastIngestedAt == r)
          && (forall id :: id in db.repos && db.repos[id].isActive && db.repos[id].lastIngestedAt.Some?
                ==> db.repos[id].lastIngestedAt.value <= r.value))
  }

  /** The commits the top-repository query groups: any repository, active
      or paused, that `JOIN repos` finds, within the window. */
  predicate TopCounted(db: Store, now: Timestamp, days: int, c: Commit) {
    c.repoId in db.repos && InWindow(c, now, days)
  }

  /** `COUNT(c.sha)` of the `GROUP BY r.full_name` group for `name`. */
  function NameCommits(db: Store, now: Timestamp, days: int, name: string): nat {
    |set sha | sha in db.commits && TopCounted(db, now, days, db.commits[sha])
               && db.repos[db.commits[sha].repoId].meta.fullName == name|
  }

  /** The groups the top-repository query forms. */
  function TopNames(db: Store, now: Timestamp, days: int): set<string> {
    set sha | sha in db.commits && TopCounted(db, now, days, db.commits[sha])
      :: db.repos[db.commits[sha].repoId].meta.fullName
  }

  lemma TopNameHasCommits(db: Store, now: Timestamp, days: int, name: string)
    ensures name in TopNames(db, now, days) <==> NameCommits(db, now, days, name) >= 1
  {
    var group := set sha | sha in db.commits && TopCounted(db, now, days, db.commits[sha])
                           && db.repos[db.commits[sha].repoId].meta.fullName == name;
    if name in TopNames(db, now, days) {
      var sha :| sha in db.commits && TopCounted(db, now, days, db.commits[sha])
                 && db.repos[db.commits[sha].repoId].meta.fullName == name;
      assert sha in group;
    }
    if NameCommits(db, now, days, name) >= 1 {
      var sha :| sha in group;
      assert sha in db.commits && TopCounted(db, now, days, db.commits[sha]);
    }
  }

  /** `ORDER BY commit_count DESC LIMIT 1` over the name groups: NULL when
      there is no group, otherwise some name whose count no name exceeds. */
  ghost predicate IsTopRepo(db: Store, now: Timestamp, days: int, r: Option<(string, nat)>) {
    && (r.None? <==> TopNames(db, now, days) == {})
    && (r.Some? ==>
          && r.value.0 in TopNames(db, now, days)
          && r.value.1 == NameCommits(db, now, days, r.value.0)
          && forall name :: NameCommits(db, now, days, name) <= r.value.1)
  }

  /** `ORDER BY commit_count DESC LIMIT 1` over the active-only day groups. */
  ghost predicate IsMostActiveDay(db: Store, now: Timestamp, days: int, r: Option<DayCount>) {
    && (r.None? <==> WindowShas(db, now, days, AllActive) == {})
    && (r.Some? ==>
          && r.value.commitCount == DayCommits(db, now, days, AllActive, r.value.day)
          && r.value.commitCount >= 1
          && forall d :: DayCommits(db, now, days, AllActive, d) <= r.value.commitCount)
  }

  // ---- repository table ---------------------------------------------------

  /** One row of the repository table. */
  datatype RepoRow = RepoRow(
    fullName: string,
    stars: int,
    forks: int,
    openIssues: int,
    pushedAt: Option<Timestamp>,
    lastIngestedAt: Option<Timestamp>,
    isActive: bool,
    isPinned: bool,
    commitCount: nat)

  /** `COALESCE(a.commit_count, 0)`: the repository's commits in the window,
      whether or not it is active. */
  function RepoWindowCommits(db: Store, now: Timestamp, days: int, id: int): nat {
    |set sha | sha in db.commits && db.commits[sha].repoId == id && InWindow(db.commits[sha], now, days)|
  }

  function RowOf(db: Store, now: Timestamp, days: int, id: int): RepoRow
    requires id in db.repos
  {
    var r := db.repos[id];
    RepoRow(r.meta.fullName, r.meta.stars, r.meta.forks, r.meta.openIssues, r.meta.pushedAt,
            r.lastIngestedAt, r.isActive, r.isPinned, RepoWindowCommits(db, now, days, id))
  }

  /** `ORDER BY is_pinned DESC, is_active DESC, commit_count DESC, stars DESC`:
      `a` may come before `b`. */
  predicate RanksAtLeast(a: RepoRow, b: RepoRow) {
    if a.isPinned != b.isPinned then a.isPinned
    else if a.isActive != b.isActive then a.isActive
    else if a.commitCount != b.commitCount then a.commitCount > b.commitCount
    else a.stars >= b.stars
  }

  lemma RanksTotal(a: RepoRow, b: RepoRow)
    ensures RanksAtLeast(a, b) || RanksAtLeast(b, a)
  {
  }

  lemma RanksTransitive(a: RepoRow, b: RepoRow, c: RepoRow)
    requires RanksAtLeast(a, b) && RanksAtLeast(b, c)
    ensures RanksAtLeast(a, c)
  {
  }

  /** ASCII case folding, the part of ILIKE's case-insensitivity modelled. */
  function FoldChar(c: char): char {
    if 'A' <= c <= 'Z' then (c as int - 'A' as int + 'a' as int) as char else c
  }

  function Fold(s: string): (f: string)
    ensures |f| == |s|
    ensures forall i :: 0 <= i < |s| ==> f[i] == FoldChar(s[i])
  {
    seq(|s|, i requires 0 <= i < |s| => FoldChar(s[i]))
  }

  /** `needle` occurs in `hay` as a contiguous run. */
  predicate Occurs(needle: string, hay: string) {
    exists i :: 0 <= i <= |hay| && needle <= hay[i..]
  }

  /** `full_name ILIKE '%' || COALESCE(:search, '') || '%'`. */
  predicate MatchesSearch(search: Option<string>, fullName: string) {
    Occurs(Fold(search.GetOr("")), Fold(fullName))
  }

  /** The repositories the table can list: every stored one, active or
      paused, whose name matches the search. */
  function Listed(db: Store, search: Option<string>): set<int> {
    set id | id in db.repos && MatchesSearch(search, db.repos[id].meta.fullName)
  }

  /** No search, or an empty one, lists every repository. */
  lemma NoSearchListsAll(db: Store)
    ensures Listed(db, None) == db.repos.Keys
    ensures Listed(db, Some("")) == db.repos.Keys
  {
    forall id | id in db.repos
      ensures MatchesSearch(None, db.repos[id].meta.fullName)
      ensures MatchesSearch(Some(""), db.repos[id].meta.fullName)
    {
      var hay := Fold(db.repos[id].meta.fullName);
      assert Fold("") <= hay[0..];
    }
  }

  /** The search ignores ASCII case in both the pattern and the name. */
  lemma SearchIgnoresCase(search: string, fullName: string)
    ensures MatchesSearch(Some(search), fullName) <==> MatchesSearch(Some(Fold(search)), Fold(fullName))
  {
    assert Fold(Fold(search)) == Fold(search);
    assert Fold(Fold(fullName)) == Fold(fullName);
  }
}

=== FILE: collections.dfy ===
/**
 * Facts about finite sets and maps that the proofs of the other modules
 * share: cardinality bounds for the counting arguments, and the algebra of
 * map override for the account writes.
 */
module Collections {
  /** A subset is no larger. */
  lemma SubsetCard<T>(a: set<T>, b: set<T>)
    requires a <= b
    ensures |a| <= |b|
  {
    assert b == a + (b - a);
  }

  /** A subset that misses an element is strictly smaller. */
  lemma StrictSubsetCard<T>(a: set<T>, b: set<T>)
    requires a <= b && b - a != {}
    ensures |a| < |b|
  {
    assert b == a + (b - a);
    assert a * (b - a) == {};
  }

  /** A union is at least as large as either side and at most the sum. */
  lemma UnionCardBound<T>(a: set<T>, c: set<T>)
    ensures |a| <= |a + c| <= |a| + |c|
  {
    assert a + c == a + (c - a);
    SubsetCard(c - a, c);
  }

  /** Map override is associative. */
  lemma MergeAssoc<K, V>(a: map<K, V>, b: map<K, V>, c: map<K, V>)
    ensures a + b + c == a + (b + c)
  {
  }

  /** Writing the same entries twice is writing them once. */
  lemma MergeAbsorbs<K, V>(a: map<K, V>, w: map<K, V>)
    ensures a + w + w == a + w
  {
  }
}

=== FILE: dashboard.dfy ===
/**
 * The dashboard's read endpoints: the KPI summary, the commits-per-day
 * series and the repository table. Each query is a method over the store
 * and the instant `now` that NOW() denotes, specified against the
 * reference definitions in `Analytics`.
 */
module Dashboard {
  import opened Wrappers
  import opened Schema
  import opened Analytics

  /** A key in `s` whose value under `f` no other key of `s` exceeds, or
      None for an empty set: `ORDER BY f DESC LIMIT 1` with ties broken
      arbitrarily. */
  method ArgMax<K>(s: set<K>, f: K -> int) returns (best: Option<K>)
    ensures best.None? <==> s == {}
    ensures best.Some? ==> best.value in s && forall k :: k in s ==> f(k) <= f(best.value)
  {
    best := None;
    var rest := s;
    while rest != {}
      invariant rest <= s
      invariant best.None? <==> rest == s
      invariant best.Some? ==> best.value in s && forall k :: k in s && k !in rest ==> f(k) <= f(best.value)
      decreases |rest|
    {
      var k :| k in rest;
      if best.None? || f(k) > f(best.value) {
        best := Some(k);
      }
      rest := rest - {k};
    }
  }

  /** Some element of a non-empty set. */
  method Choose<K>(s: set<K>) returns (x: K)
    requires s != {}
    ensures x in s
  {
    x :| x in s;
  }

  /** `SELECT MAX(last_ingested_at) FROM repos WHERE is_active = TRUE`. */
  method LatestIngestion(db: Store) returns (r: Option<Timestamp>)
    ensures IsLatestIngestion(db, r)
  {
    var stamped := set id | id in db.repos && db.repos[id].isActive && db.repos[id].lastIngestedAt.Some?;
    var stamp := id => if id in db.repos && db.repos[id].lastIngestedAt.Some? then db.repos[id].lastIngestedAt.value else 0;
    var best := ArgMax(stamped, stamp);
    if best.Some? {
      var w := best.value;
      assert w in stamped;
      r := db.repos[w].lastIngestedAt;
      assert w in db.repos && db.repos[w].isActive && db.repos[w].lastIngestedAt == r;
      assert exists id :: id in db.repos && db.repos[id].isActive && db.repos[id].lastIngestedAt == r;
      assert r.Some?;
      forall id | id in db.repos && db.repos[id].isActive && db.repos[id].lastIngestedAt.Some?
        ensures db.repos[id].lastIngestedAt.value <= r.value
      {
        assert id in stamped;
        assert stamp(id) <= stamp(best.value);
      }
      assert IsLatestIngestion(db, r);
    } else {
      r := None;
      forall id | id in db.repos && db.repos[id].isActive
        ensures db.repos[id].lastIngestedAt.None?
      {
        assert db.repos[id].lastIngestedAt.Some? ==> id in stamped;
      }
      assert IsLatestIngestion(db, r);
    }
  }

  /** The top-repository query over a `days` window. */
  method TopRepo(db: Store, now: Timestamp, days: int) returns (r: Option<(string, nat)>)
    ensures IsTopRepo(db, now, days, r)
  {
    var names := TopNames(db, now, days);
    var best := ArgMax(names, name => NameCommits(db, now, days, name));
    if best.Some? {
      r := Some((best.value, NameCommits(db, now, days, best.value)));
      TopNameHasCommits(db, now, days, best.value);
      forall name | true ensures NameCommits(db, now, days, name) <= r.value.1 {
        TopNameHasCommits(db, now, days, name);
      }
    } else {
      r := None;
    }
  }

  /** The most-active-day query over a `days` window. */
  method MostActiveDay(db: Store, now: Timestamp, days: int) returns (r: Option<DayCount>)
    ensures IsMostActiveDay(db, now, days, r)
  {
    var groups := ActiveDays(db, now, days, AllActive);
    var best := ArgMax(groups, d => DayCommits(db, now, days, AllActive, d));
    if best.Some? {
      r := Some(DayCount(best.value, DayCommits(db, now, days, AllActive, best.value)));
      ActiveDayHasCommits(db, now, days, AllActive, best.value);
      forall d | true ensures DayCommits(db, now, days, AllActive, d) <= r.value.commitCount {
        ActiveDayHasCommits(db, now, days, AllActive, d);
      }
      var sha :| sha in db.commits && Counted(db, now, days, AllActive, db.commits[sha])
                 && CommitDay(db.commits[sha]) == best.value;
      assert sha in WindowShas(db, now, days, AllActive);
    } else {
      r := None;
      forall sha | sha in WindowShas(db, now, days, AllActive)
        ensures CommitDay(db.commits[sha]) in groups
      {
      }
    }
  }

  datatype Totals = Totals(repos: nat, commits: nat, commits7d: nat, commits30d: nat)

  /** The `/api/summary` payload. */
  datatype Summary = Summary(
    totals: Totals,
    lastIngestedAt: Option<Timestamp>,
    topRepo30d: Option<(string, nat)>,
    mostActiveDay30d: Option<DayCount>)

  /** `dashboard_summary`. The repository total and the windowed counts see
      active repositories only; the commit total sees every stored commit;
      the top repository is ranked over active and paused repositories. */
  method DashboardSummary(db: Store, now: Timestamp) returns (s: Summary)
    ensures s.totals.repos == |ActiveRepoIds(db)|
    ensures s.totals.commits == |db.commits|
    ensures s.totals.commits7d == |WindowShas(db, now, 7, AllActive)|
    ensures s.totals.commits30d == |WindowShas(db, now, 30, AllActive)|
    ensures s.totals.commits7d <= s.totals.commits30d <= s.totals.commits
    ensures IsLatestIngestion(db, s.lastIngestedAt)
    ensures IsTopRepo(db, now, 30, s.topRepo30d)
    ensures IsMostActiveDay(db, now, 30, s.mostActiveDay30d)
  {
    WindowShasMonotone(db, now, 7, 30, AllActive);
    var totals := Totals(|ActiveRepoIds(db)|, |db.commits|,
                         |WindowShas(db, now, 7, AllActive)|, |WindowShas(db, now, 30, AllActive)|);
    var latest := LatestIngestion(db);
    var top := TopRepo(db, now, 30);
    var day := MostActiveDay(db, now, 30);
    s := Summary(totals, latest, top, day);
  }

  /** Loop invariant of `BuildSeries`: `s` is the series over the days of
      `all` already taken, every one of them earlier than the days in `rest`. */
  predicate SeriesPrefix(db: Store, now: Timestamp, days: int, scope: Scope,
                         s: seq<DayCount>, rest: set<int>, all: set<int>)
  {
    && Increasing(s)
    && (forall i :: 0 <= i < |s| ==> s[i].commitCount == DayCommits(db, now, days, scope, s[i].day))
    && rest <= all
    && SeriesDays(s) + rest == all
    && (forall i, d :: 0 <= i < |s| && d in rest ==> s[i].day < d)
  }

  /** Appending the earliest remaining day keeps the invariant. */
  lemma SeriesStep(db: Store, now: Timestamp, days: int, scope: Scope,
                   s: seq<DayCount>, rest: set<int>, all: set<int>, d: int)
    requires SeriesPrefix(db, now, days, scope, s, rest, all)
    requires d in rest
    requires forall e :: e in rest ==> d <= e
    ensures SeriesPrefix(db, now, days, scope, s + [DayCount(d, DayCommits(db, now, days, scope, d))], rest - {d}, all)
  {
    var row := DayCount(d, DayCommits(db, now, days, scope, d));
    var s' := s + [row];
    forall e | e in SeriesDays(s') ensures e in SeriesDays(s) + {d} {
      var i :| 0 <= i < |s'| && s'[i].day == e;
      if i < |s| { assert s[i] == s'[i]; }
    }
    forall e | e in SeriesDays(s) ensures e in SeriesDays(s') {
      var i :| 0 <= i < |s| && s[i].day == e;
      assert s'[i] == s[i];
    }
    assert s'[|s|].day == d;
    assert SeriesDays(s') == SeriesDays(s) + {d};
    forall i, j | 0 <= i < j < |s'| ensures s'[i].day < s'[j].day {
      if j < |s| {
        assert s'[i] == s[i] && s'[j] == s[j];
      } else {
        assert s'[i] == s[i];
      }
    }
  }

  /** The day series over `scope`, built earliest day first. */
  method BuildSeries(db: Store, now: Timestamp, days: int, scope: Scope) returns (s: seq<DayCount>)
    ensures IsSeries(db, now, days, scope, s)
  {
    var all := ActiveDays(db, now, days, scope);
    var rest := all;
    s := [];
    while rest != {}
      invariant SeriesPrefix(db, now, days, scope, s, rest, all)
      decreases |rest|
    {
      // the earliest remaining day: the one maximising -d
      var pick := ArgMax(rest, d => -d);
      var d := pick.value;
      SeriesStep(db, now, days, scope, s, rest, all, d);
      s := s + [DayCount(d, DayCommits(db, now, days, scope, d))];
      rest := rest - {d};
    }
  }

  /** `commits_timeseries` as written. An unknown non-empty `full_name` is a
      404, but a known one does not narrow the query: the repository id is
      bound as a parameter the SQL never mentions, so the series is the one
      over all active repositories either way. */
  method CommitsTimeseries(db: Store, now: Timestamp, days: int, fullName: Option<string>)
    returns (r: Result<seq<DayCount>, Error>)
    requires 1 <= days <= 365
    ensures r.Err? <==> fullName.Some? && fullName.value != "" && NamedIds(db, fullName.value) == {}
    ensures r.Err? ==> r.error == NotFound
    ensures r.Ok? ==> IsSeries(db, now, days, AllActive, r.value)
  {
    if fullName.Some? && fullName.value != "" {
      var named := NamedIds(db, fullName.value);
      if named == {} {
        return Err(NotFound);
      }
    }
    var s := BuildSeries(db, now, days, AllActive);
    r := Ok(s);
  }

  /** `commits_timeseries` as its description intends it: with a known
      `full_name` the series counts only that repository's commits (and
      only while it is active). */
  method RepoTimeseries(db: Store, now: Timestamp, days: int, fullName: Option<string>)
    returns (r: Result<seq<DayCount>, Error>)
    requires 1 <= days <= 365
    ensures r.Err? <==> fullName.Some? && fullName.value != "" && NamedIds(db, fullName.value) == {}
    ensures r.Err? ==> r.error == NotFound
    ensures r.Ok? && (fullName.None? || fullName.value == "") ==> IsSeries(db, now, days, AllActive, r.value)
    ensures r.Ok? && fullName.Some? && fullName.value != "" ==>
      exists id :: id in NamedIds(db, fullName.value) && IsSeries(db, now, days, OnlyRepo(id), r.value)
  {
    if fullName.Some? && fullName.value != "" {
      var named := NamedIds(db, fullName.value);
      if named == {} {
        return Err(NotFound);
      }
      var id := Choose(named);
      var s := BuildSeries(db, now, days, OnlyRepo(id));
      return Ok(s);
    }
    var s := BuildSeries(db, now, days, AllActive);
    r := Ok(s);
  }

  /** A candidate that ranks at least as high as every candidate. */
  method PickTop(db: Store, now: Timestamp, days: int, candidates: set<int>) returns (top: int)
    requires candidates != {}
    requires candidates <= db.repos.Keys
    ensures top in candidates
    ensures forall id :: id in candidates ==> RanksAtLeast(RowOf(db, now, days, top), RowOf(db, now, days, id))
  {
    top := Choose(candidates);
    var rest := candidates - {top};
    while rest != {}
      invariant rest <= candidates && top in candidates
      invariant forall id :: id in candidates && id !in rest ==>
                  RanksAtLeast(RowOf(db, now, days, top), RowOf(db, now, days, id))
      decreases |rest|
    {
      var id := Choose(rest);
      if !RanksAtLeast(RowOf(db, now, days, top), RowOf(db, now, days, id)) {
        RanksTotal(RowOf(db, now, days, top), RowOf(db, now, days, id));
        forall other | other in candidates && other !in rest
          ensures RanksAtLeast(RowOf(db, now, days, id), RowOf(db, now, days, other))
        {
          RanksTransitive(RowOf(db, now, days, id), RowOf(db, now, days, top), RowOf(db, now, days, other));
        }
        top := id;
      }
      rest := rest - {id};
    }
  }

  function Min(a: int, b: int): int {
    if a <= b then a else b
  }

  /** Loop invariant of `ReposTable`: `rows` are the rows of the distinct
      repositories `ids`, ranked, and none of the `rest` outranks them;
      together `ids` and `rest` are exactly `listed`. */
  ghost predicate TablePrefix(db: Store, now: Timestamp, days: int, listed: set<int>,
                              rows: seq<RepoRow>, ids: seq<int>, rest: set<int>)
  {
    && listed <= db.repos.Keys
    && rest <= listed
    && |rows| == |ids|
    && (forall i :: 0 <= i < |ids| ==> ids[i] in listed && ids[i] !in rest && rows[i] == RowOf(db, now, days, ids[i]))
    && (forall i, j :: 0 <= i < j < |ids| ==> ids[i] != ids[j])
    && (forall id :: id in listed ==> id in rest || id in ids)
    && |ids| + |rest| == |listed|
    && (forall i, j :: 0 <= i < j < |rows| ==> RanksAtLeast(rows[i], rows[j]))
    && (forall id, i :: id in rest && 0 <= i < |rows| ==> RanksAtLeast(rows[i], RowOf(db, now, days, id)))
  }

  /** Moving a top-ranked remaining repository to the end of the table keeps
      the invariant. */
  lemma TableStep(db: Store, now: Timestamp, days: int, listed: set<int>,
                  rows: seq<RepoRow>, ids: seq<int>, rest: set<int>, top: int)
    requires TablePrefix(db, now, days, listed, rows, ids, rest)
    requires top in rest
    requires forall id :: id in rest ==> RanksAtLeast(RowOf(db, now, days, top), RowOf(db, now, days, id))
    ensures TablePrefix(db, now, days, listed, rows + [RowOf(db, now, days, top)], ids + [top], rest - {top})
  {
    var rows' := rows + [RowOf(db, now, days, top)];
    var ids' := ids + [top];
    var rest' := rest - {top};
    forall i | 0 <= i < |ids'|
      ensures ids'[i] in listed && ids'[i] !in rest' && rows'[i] == RowOf(db, now, days, ids'[i])
    {
      if i < |ids| { assert ids'[i] == ids[i] && rows'[i] == rows[i]; }
    }
    forall i, j | 0 <= i < j < |ids'| ensures ids'[i] != ids'[j] {
      if j < |ids| { assert ids'[i] == ids[i] && ids'[j] == ids[j]; }
      else { assert ids'[i] == ids[i]; }
    }
    forall id | id in listed ensures id in rest' || id in ids' {
      if id !in rest' && id !in ids {
        assert id == top;
        assert ids'[|ids|] == top;
      } else if id in ids {
        var k :| 0 <= k < |ids| && ids[k] == id;
        assert ids'[k] == id;
      }
    }
    forall i, j | 0 <= i < j < |rows'| ensures RanksAtLeast(rows'[i], rows'[j]) {
      if j < |rows| { assert rows'[i] == rows[i] && rows'[j] == rows[j]; }
      else { assert rows'[i] == rows[i]; }
    }
    forall id, i | id in rest' && 0 <= i < |rows'| ensures RanksAtLeast(rows'[i], RowOf(db, now, days, id)) {
      if i < |rows| { assert rows'[i] == rows[i]; }
    }
  }

  /** `repos_table`: the matching repositories, active and paused, ranked by
      pinned, active, window commit count and stars, all descending, and cut
      at `limit`. `ids` names the repository behind each row. */
  method ReposTable(db: Store, now: Timestamp, days: int, limit: int, search: Option<string>)
    returns (rows: seq<RepoRow>, ghost ids: seq<int>)
    requires 1 <= days <= 365
    requires 1 <= limit <= 200
    ensures |rows| == |ids| == Min(limit, |Listed(db, search)|)
    ensures forall i :: 0 <= i < |ids| ==> ids[i] in Listed(db, search) && rows[i] == RowOf(db, now, days, ids[i])
    ensures forall i, j :: 0 <= i < j < |ids| ==> ids[i] != ids[j]
    ensures forall i, j :: 0 <= i < j < |rows| ==> RanksAtLeast(rows[i], rows[j])
    // a matching repository left out ranks no higher than any row shown
    ensures forall id, i :: id in Listed(db, search) && id !in ids && 0 <= i < |rows| ==>
              RanksAtLeast(rows[i], RowOf(db, now, days, id))
  {
    var listed := Listed(db, search);
    var rest := listed;
    rows := [];
    ids := [];
    while |rows| < limit && rest != {}
      invariant TablePrefix(db, now, days, listed, rows, ids, rest)
      invariant |rows| <= limit
      decreases |rest|
    {
      var top := PickTop(db, now, days, rest);
      TableStep(db, now, days, listed, rows, ids, rest, top);
      rows := rows + [RowOf(db, now, days, top)];
      ids := ids + [top];
      rest := rest - {top};
    }
  }
}

=== FILE: github_json.dfy ===
/**
 * The GitHub REST payloads the ingestion code reads, already decoded from
 * JSON, and the two rules by which it turns timestamp fields into column
 * values. Only the keys the code looks at are kept.
 */
module GithubJson {
  import opened Wrappers
  import opened Schema

  /** The JSON value found where a timestamp string is expected. */
  datatype StampJson =
    | Null                   // key absent, or JSON null
    | EmptyText              // the empty string
    | Text(at: Timestamp)    // a non-empty string that dateutil parses to `at`
    | BadText                // a non-empty string that dateutil rejects
    | NonText(truthy: bool)  // a number, boolean, list or object, with its Python truthiness

  /** `GET /repos/{owner}/{repo}`. */
  datatype RepoJson = RepoJson(
    id: int,
    fullName: string,
    ownerLogin: string,          // repo["owner"]["login"]
    name: string,
    fork: bool,
    stargazersCount: int,
    forksCount: int,
    openIssuesCount: int,
    defaultBranch: Option<string>,
    createdAt: StampJson,
    updatedAt: StampJson,
    pushedAt: StampJson)

  /** The `author` / `committer` account object of a commit item: `{}` or
      an account with its id and login. JSON null is `None` around it. */
  datatype UserJson =
    | EmptyObject
    | Account(id: int, login: string, kind: Option<string>, siteAdmin: Option<bool>)

  /** `commit.author` / `commit.committer`: free-text identity and date. */
  datatype PersonJson = PersonJson(name: Option<string>, email: Option<string>, date: StampJson)

  /** The git-level `commit` object inside a commit item. */
  datatype CommitJson = CommitJson(
    author: Option<PersonJson>,
    committer: Option<PersonJson>,
    message: Option<string>)

  /** One element of `GET /repos/{owner}/{repo}/commits`. */
  datatype CommitItem = CommitItem(
    sha: string,
    commit: CommitJson,
    author: Option<UserJson>,
    committer: Option<UserJson>,
    htmlUrl: Option<string>,
    url: Option<string>)

  /** `dateparser.parse(v) if v else None`: the rule for a repository's
      created/updated/pushed timestamps. A falsy value gives NULL; a truthy
      value that is not a parseable string raises. */
  function RepoStamp(v: StampJson): (r: Result<Option<Timestamp>, Error>)
    ensures r.Ok? && r.value.Some? ==> v == Text(r.value.value)
    ensures r.Err? ==> r.error == BadTimestamp
    ensures r.Ok? && r.value.None? <==> v.Null? || v.EmptyText? || v == NonText(false)
    ensures v.Text? ==> r == Ok(Some(v.at))
  {
    match v
    case Null => Ok(None)
    case EmptyText => Ok(None)
    case NonText(truthy) => if truthy then Err(BadTimestamp) else Ok(None)
    case Text(t) => Ok(Some(t))
    case BadText => Err(BadTimestamp)
  }

  /** `dateparser.parse(v) if isinstance(v, str) else None`: the rule for a
      commit's date. Anything that is not a string gives NULL; every string,
      even the empty one, goes to the parser. */
  function CommitStamp(v: StampJson): (r: Result<Option<Timestamp>, Error>)
    ensures r.Ok? && r.value.Some? ==> v == Text(r.value.value)
    ensures r.Err? ==> r.error == BadTimestamp
    ensures r.Ok? && r.value.None? <==> v.Null? || v.NonText?
    ensures v.Text? ==> r == Ok(Some(v.at))
  {
    match v
    case Null => Ok(None)
    case NonText(_) => Ok(None)
    case Text(t) => Ok(Some(t))
    case EmptyText => Err(BadTimestamp)
    case BadText => Err(BadTimestamp)
  }
}

=== FILE: github_store.dfy ===
/**
 * The ingestion writes: upsert a repository, upsert a linked account, and
 * insert a commit if its sha is new. Each is a transition of the store that
 * either yields the new store or an error: `BadTimestamp` when the date
 * parser rejects a value while the parameters are built, before any
 * statement runs, and `ForeignKeyViolation` when the database refuses a
 * commit row.
 */
module GithubStore {
  import opened Wrappers
  import opened Schema
  import opened GithubJson

  /** The metadata columns bound from a fetched repository; fails when one
      of its timestamps cannot be parsed. */
  function RepoMetaOf(j: RepoJson): (r: Result<RepoMeta, Error>)
    ensures r.Err? ==> r.error == BadTimestamp
  {
    var created :- RepoStamp(j.createdAt);
    var updated :- RepoStamp(j.updatedAt);
    var pushed :- RepoStamp(j.pushedAt);
    Ok(RepoMeta(j.fullName, j.ownerLogin, j.name, j.fork, j.stargazersCount,
                j.forksCount, j.openIssuesCount, j.defaultBranch, created, updated, pushed))
  }

  /** `INSERT INTO repos … ON CONFLICT (id) DO UPDATE SET <metadata>,
      last_ingested_at = NOW()`. */
  function UpsertRepo(db: Store, j: RepoJson, now: Timestamp): (r: Result<Store, Error>)
    ensures r.Err? <==> RepoMetaOf(j).Err?
    ensures r.Err? ==> r.error == BadTimestamp
    ensures r.Ok? ==> r.value.users == db.users && r.value.commits == db.commits
    ensures r.Ok? ==> r.value.repos.Keys == db.repos.Keys + {j.id}
    ensures r.Ok? ==> |r.value.repos| == |db.repos| + (if j.id in db.repos then 0 else 1)
    ensures r.Ok? ==>
      var row := r.value.repos[j.id];
      && row.id == j.id
      && row.meta == RepoMetaOf(j).value
      && row.lastIngestedAt == Some(now)
    // the management flags survive an update and take their defaults on insert
    ensures r.Ok? && j.id in db.repos ==>
      && r.value.repos[j.id].isActive == db.repos[j.id].isActive
      && r.value.repos[j.id].isPinned == db.repos[j.id].isPinned
    ensures r.Ok? && j.id !in db.repos ==>
      && r.value.repos[j.id].isActive == DefaultActive
      && r.value.repos[j.id].isPinned == DefaultPinned
    ensures r.Ok? ==> forall id :: id in db.repos && id != j.id ==> r.value.repos[id] == db.repos[id]
    ensures r.Ok? && Valid(db) ==> Valid(r.value)
  {
    var meta :- RepoMetaOf(j);
    var row :=
      if j.id in db.repos then Repo(j.id, meta, db.repos[j.id].isActive, db.repos[j.id].isPinned, Some(now))
      else Repo(j.id, meta, DefaultActive, DefaultPinned, Some(now));
    Ok(db.(repos := db.repos[j.id := row]))
  }

  /** Running the same repository upsert twice at the same instant leaves the
      store as one run left it. */
  lemma UpsertRepoIdempotent(db: Store, j: RepoJson, now: Timestamp)
    ensures UpsertRepo(db, j, now).Ok? ==>
      UpsertRepo(UpsertRepo(db, j, now).value, j, now) == UpsertRepo(db, j, now)
  {
    if UpsertRepo(db, j, now).Ok? {
      var s := UpsertRepo(db, j, now).value;
      assert s.repos[j.id := s.repos[j.id]] == s.repos;
    }
  }

  /** Python truthiness of an account value: None and `{}` are falsy. */
  predicate Linked(u: Option<UserJson>) {
    u.Some? && u.value.Account?
  }

  /** The users-table write an account value causes: none when it is falsy,
      otherwise its row, keyed by its id and stamped `now`. */
  function UserWrite(u: Option<UserJson>, now: Timestamp): map<int, User> {
    if Linked(u) then
      var a := u.value;
      map[a.id := User(a.id, a.login, a.kind, a.siteAdmin, Some(now))]
    else map[]
  }

  /** `upsert_user`: a falsy account changes nothing and yields None;
      otherwise its row is inserted or overwritten and its id returned. */
  function UpsertUser(users: map<int, User>, u: Option<UserJson>, now: Timestamp): (r: (map<int, User>, Option<int>))
    ensures r.0 == users + UserWrite(u, now)
    ensures r.1 == LinkedId(u)
    ensures !Linked(u) ==> r.0 == users && r.1 == None
    ensures Linked(u) ==>
      && r.1 == Some(u.value.id)
      && r.0.Keys == users.Keys + {u.value.id}
      && r.0[u.value.id].login == u.value.login
      && r.0[u.value.id].lastIngestedAt == Some(now)
      && (forall id :: id in users && id != u.value.id ==> r.0[id] == users[id])
  {
    if Linked(u) then
      var a := u.value;
      (users[a.id := User(a.id, a.login, a.kind, a.siteAdmin, Some(now))], Some(a.id))
    else (users, None)
  }

  /** `commit.get(role) or {}`: a missing or null person reads as `{}`. */
  function PersonOrEmpty(p: Option<PersonJson>): PersonJson {
    p.GetOr(PersonJson(None, None, Null))
  }

  /** The committed_at value the item yields, or the parse error. */
  function CommittedAt(item: CommitItem): Result<Option<Timestamp>, Error> {
    CommitStamp(PersonOrEmpty(item.commit.committer).date)
  }

  /** `item.get("html_url") or item.get("url")`. */
  function CommitUrl(item: CommitItem): Option<string> {
    if item.htmlUrl.Some? && item.htmlUrl.value != "" then item.htmlUrl else item.url
  }

  /** The account id a commit column records: the linked account's id, or
      NULL when the value is falsy. */
  function LinkedId(u: Option<UserJson>): (r: Option<int>)
    ensures r.None? <==> !Linked(u)
    ensures Linked(u) ==> r == Some(u.value.id)
  {
    if Linked(u) then Some(u.value.id) else None
  }

  /** The row `insert_commit` binds for `item` in repository `repoId`, given
      the committed_at value its committer date yielded. */
  function CommitRowOf(repoId: int, item: CommitItem, committedAt: Option<Timestamp>, now: Timestamp): (c: Commit)
    requires CommittedAt(item) == Ok(committedAt)
    ensures c.sha == item.sha && c.repoId == repoId
    ensures c.authorUserId.None? <==> !Linked(item.author)
    ensures c.committerUserId.None? <==> !Linked(item.committer)
    ensures Linked(item.author) ==> c.authorUserId == Some(item.author.value.id)
    ensures Linked(item.committer) ==> c.committerUserId == Some(item.committer.value.id)
    // free-text identity comes from the git commit even without a linked account
    ensures item.commit.author.None? ==> c.authorName.None? && c.authorEmail.None?
    ensures item.commit.author.Some? ==>
      c.authorName == item.commit.author.value.name && c.authorEmail == item.commit.author.value.email
    ensures item.commit.committer.None? ==> c.committerName.None? && c.committerEmail.None?
    ensures item.commit.committer.Some? ==>
      c.committerName == item.commit.committer.value.name && c.committerEmail == item.commit.committer.value.email
    ensures c.message == item.commit.message
    // the stored date is the parsed committer date, NULL when there is none
    ensures c.committedAt == committedAt
    ensures c.committedAt.None? <==>
      item.commit.committer.None? || item.commit.committer.value.date.Null?
      || item.commit.committer.value.date.NonText?
    ensures item.htmlUrl.Some? && item.htmlUrl.value != "" ==> c.url == item.htmlUrl
    ensures item.htmlUrl.None? || item.htmlUrl.value == "" ==> c.url == item.url
    ensures c.ingestedAt == Some(now)
  {
    var author := PersonOrEmpty(item.commit.author);
    var committer := PersonOrEmpty(item.commit.committer);
    Commit(item.sha, repoId, LinkedId(item.author), LinkedId(item.committer),
           author.name, author.email, committer.name, committer.email,
           item.commit.message, committedAt, CommitUrl(item), Some(now))
  }

  /** `INSERT INTO commits … ON CONFLICT (sha) DO NOTHING` with the row
      `CommitRowOf` binds. A new row whose repository is not stored breaks
      the foreign key on `commits.repo_id`. */
  function InsertRow(db: Store, repoId: int, item: CommitItem, committedAt: Option<Timestamp>, now: Timestamp): (r: Result<Store, Error>)
    requires CommittedAt(item) == Ok(committedAt)
    ensures r.Err? <==> item.sha !in db.commits && repoId !in db.repos
    ensures r.Err? ==> r.error == ForeignKeyViolation
    ensures r.Ok? ==> r.value.repos == db.repos && r.value.users == db.users
    ensures r.Ok? && item.sha in db.commits ==> r.value.commits == db.commits
    ensures r.Ok? && item.sha !in db.commits ==>
      && r.value.commits.Keys == db.commits.Keys + {item.sha}
      && |r.value.commits| == |db.commits| + 1
      && r.value.commits[item.sha] == CommitRowOf(repoId, item, committedAt, now)
      && (forall sha :: sha in db.commits ==> r.value.commits[sha] == db.commits[sha])
    ensures r.Ok? && Valid(db) ==> Valid(r.value)
  {
    if item.sha in db.commits then Ok(db)
    else if repoId !in db.repos then Err(ForeignKeyViolation)
    else Ok(db.(commits := db.commits[item.sha := CommitRowOf(repoId, item, committedAt, now)]))
  }

  /** Writing an account keeps every account row keyed by its own id. */
  lemma UserWriteKeyed(users: map<int, User>, u: Option<UserJson>, now: Timestamp)
    requires forall id :: id in users ==> users[id].id == id
    ensures forall id :: id in users + UserWrite(u, now) ==> (users + UserWrite(u, now))[id].id == id
  {
  }

  /** `insert_commit`: upsert the linked author and committer accounts, then
      insert the row unless its sha is stored. */
  function InsertCommit(db: Store, repoId: int, item: CommitItem, now: Timestamp): (r: Result<Store, Error>)
    ensures r.Err? <==>
      CommittedAt(item).Err? || (item.sha !in db.commits && repoId !in db.repos)
    // the date is parsed before the statement runs, so a bad date wins
    ensures r.Err? ==> r.error == (if CommittedAt(item).Err? then BadTimestamp else ForeignKeyViolation)
    ensures r.Ok? ==> r.value.repos == db.repos
    // the accounts are written even when the sha is a duplicate
    ensures r.Ok? ==> r.value.users == db.users + UserWrite(item.author, now) + UserWrite(item.committer, now)
    ensures r.Ok? && item.sha in db.commits ==> r.value.commits == db.commits
    ensures r.Ok? && item.sha !in db.commits ==>
      && r.value.commits.Keys == db.commits.Keys + {item.sha}
      && |r.value.commits| == |db.commits| + 1
      && r.value.commits[item.sha] == CommitRowOf(repoId, item, CommittedAt(item).value, now)
      && (forall sha :: sha in db.commits ==> r.value.commits[sha] == db.commits[sha])
    ensures r.Ok? && Valid(db) ==> Valid(r.value)
  {
    var (users1, _) := UpsertUser(db.users, item.author, now);
    var (users2, _) := UpsertUser(users1, item.committer, now);
    var committedAt :- CommittedAt(item);
    var written := db.(users := users2);
    assert Valid(db) ==> Valid(written) by {
      if Valid(db) {
        UserWriteKeyed(db.users, item.author, now);
        UserWriteKeyed(users1, item.committer, now);
      }
    }
    InsertRow(written, repoId, item, committedAt, now)
  }

  /** A duplicate sha leaves the commits table alone but still refreshes the
      accounts it links: here a new author account is added. */
  lemma DuplicateShaStillUpsertsUsers()
    ensures
      var existing := Commit("a1", 7, None, None, None, None, None, None, None, Some(0), None, None);
      var db := Store(map[7 := Repo(7, RepoMeta("o/r", "o", "r", false, 0, 0, 0, None, None, None, None), true, false, None)],
                      map[], map["a1" := existing]);
      var item := CommitItem("a1", CommitJson(None, None, None), Some(Account(42, "alice", None, None)), None, None, None);
      var r := InsertCommit(db, 7, item, 100);
      && r.Ok?
      && r.value.commits == db.commits
      && 42 in r.value.users && 42 !in db.users
  {
  }
}

=== FILE: ingest_github.dfy ===
/**
 * The stand-alone ingestion script: inside one transaction, upsert the
 * fetched repository and then insert every fetched commit item, reporting
 * how many items were processed. The HTTP fetches are left to the caller:
 * the fetched repository and commit list are parameters.
 */
module IngestGithub {
  import opened Wrappers
  import opened Schema
  import opened GithubJson
  import opened GithubStore
  import opened Collections

  /** The shas a batch of commit items carries. */
  function ShasOf(items: seq<CommitItem>): set<string> {
    set i | 0 <= i < |items| :: items[i].sha
  }

  /** Every item's committer date yields a committed_at value. */
  predicate AllStampsParse(items: seq<CommitItem>) {
    forall i :: 0 <= i < |items| ==> CommittedAt(items[i]).Ok?
  }

  /** The account rows a batch writes, a later write to the same id
      replacing an earlier one. */
  function LinkedWrites(items: seq<CommitItem>, now: Timestamp): map<int, User>
    decreases |items|
  {
    if |items| == 0 then map[]
    else UserWrite(items[0].author, now) + UserWrite(items[0].committer, now) + LinkedWrites(items[1..], now)
  }

  lemma ShasOfCons(items: seq<CommitItem>)
    requires |items| > 0
    ensures ShasOf(items) == {items[0].sha} + ShasOf(items[1..])
  {
    forall sha | sha in ShasOf(items)
      ensures sha in {items[0].sha} + ShasOf(items[1..])
    {
      var i :| 0 <= i < |items| && items[i].sha == sha;
      if i > 0 {
        assert items[1..][i - 1].sha == sha;
      }
    }
    forall sha | sha in ShasOf(items[1..])
      ensures sha in ShasOf(items)
    {
      var i :| 0 <= i < |items[1..]| && items[1..][i].sha == sha;
      assert items[i + 1].sha == sha;
    }
  }

  lemma AllStampsParseCons(items: seq<CommitItem>)
    requires |items| > 0
    ensures AllStampsParse(items) <==> CommittedAt(items[0]).Ok? && AllStampsParse(items[1..])
  {
    if CommittedAt(items[0]).Ok? && AllStampsParse(items[1..]) {
      forall i | 0 <= i < |items| ensures CommittedAt(items[i]).Ok? {
        if i > 0 { assert items[i] == items[1..][i - 1]; }
      }
    }
  }

  /** Writing one item's accounts and then the rest's is writing the whole
      batch's accounts. */
  lemma UsersStep(u: map<int, User>, a: map<int, User>, c: map<int, User>, rest: map<int, User>)
    ensures u + a + c + rest == u + (a + c + rest)
  {
    MergeAssoc(u + a, c, rest);
    MergeAssoc(u, a, c);
    MergeAssoc(u, a + c, rest);
  }

  /** The rows an insert loop leaves for a batch: every item whose sha is
      neither among the `known` ones nor carried by an earlier item of the
      batch is stored as the row `insert_commit` binds for it. A later item
      with the same sha hits `ON CONFLICT (sha) DO NOTHING`, so the first
      one wins. */
  predicate FirstRows(known: set<string>, repoId: int, items: seq<CommitItem>, now: Timestamp,
                      commits: map<string, Commit>) {
    forall i :: 0 <= i < |items| && items[i].sha !in known && items[i].sha !in ShasOf(items[..i]) ==>
      && CommittedAt(items[i]).Ok?
      && items[i].sha in commits
      && commits[items[i].sha] == CommitRowOf(repoId, items[i], CommittedAt(items[i]).value, now)
  }

  lemma ShasOfPrefixCons(items: seq<CommitItem>, i: int)
    requires 0 < i <= |items|
    ensures ShasOf(items[..i]) == {items[0].sha} + ShasOf(items[1..][..i - 1])
  {
    ShasOfCons(items[..i]);
    assert items[..i][1..] == items[1..][..i - 1];
  }

  /** The first item's row, and the rest's rows with the first sha known,
      give the whole batch's rows. */
  lemma FirstRowsCons(known: set<string>, repoId: int, items: seq<CommitItem>, now: Timestamp,
                      first: map<string, Commit>, commits: map<string, Commit>)
    requires |items| > 0
    requires first.Keys == known + {items[0].sha}
    requires forall sha :: sha in first ==> sha in commits && commits[sha] == first[sha]
    requires items[0].sha !in known ==>
      && CommittedAt(items[0]).Ok?
      && first[items[0].sha] == CommitRowOf(repoId, items[0], CommittedAt(items[0]).value, now)
    requires FirstRows(first.Keys, repoId, items[1..], now, commits)
    ensures FirstRows(known, repoId, items, now, commits)
  {
    forall i | 0 < i < |items| && items[i].sha !in known && items[i].sha !in ShasOf(items[..i])
      ensures CommittedAt(items[i]).Ok? && items[i].sha in commits
           && commits[items[i].sha] == CommitRowOf(repoId, items[i], CommittedAt(items[i]).value, now)
    {
      ShasOfPrefixCons(items, i);
      assert items[1..][i - 1] == items[i];
    }
    assert ShasOf(items[..0]) == {};
  }

  /** What a successful insert loop over `items` leaves behind, starting
      from `db`: the repositories as they were, the batch's accounts written
      in order, every stored commit kept, and each new sha stored once, as
      the row of the first item carrying it, under `repoId`. */
  predicate Inserted(db: Store, repoId: int, items: seq<CommitItem>, now: Timestamp, after: Store) {
    && after.repos == db.repos
    && after.users == db.users + LinkedWrites(items, now)
    && after.commits.Keys == db.commits.Keys + ShasOf(items)
    && (forall sha :: sha in db.commits ==> after.commits[sha] == db.commits[sha])
    && (forall sha :: sha in after.commits && sha !in db.commits ==> after.commits[sha].repoId == repoId)
    && FirstRows(db.commits.Keys, repoId, items, now, after.commits)
  }

  /** The commit-table part of one loop step: one sha written, then the
      rest of the batch's shas added on top. */
  lemma CommitsStep(before: map<string, Commit>, mid: map<string, Commit>, after: map<string, Commit>,
                    items: seq<CommitItem>, repoId: int)
    requires |items| > 0
    requires mid.Keys == before.Keys + {items[0].sha}
    requires forall sha :: sha in before ==> mid[sha] == before[sha]
    requires items[0].sha !in before ==> mid[items[0].sha].repoId == repoId
    requires after.Keys == mid.Keys + ShasOf(items[1..])
    requires forall sha :: sha in mid ==> after[sha] == mid[sha]
    requires forall sha :: sha in after && sha !in mid ==> after[sha].repoId == repoId
    ensures after.Keys == before.Keys + ShasOf(items)
    ensures forall sha :: sha in before ==> after[sha] == before[sha]
    ensures forall sha :: sha in after && sha !in before ==> after[sha].repoId == repoId
  {
    ShasOfCons(items);
  }

  /** One `insert_commit` followed by the loop over the rest is the loop over
      the whole batch. */
  lemma InsertedCons(db: Store, repoId: int, items: seq<CommitItem>, now: Timestamp, s: Store, after: Store)
    requires |items| > 0
    requires InsertCommit(db, repoId, items[0], now) == Ok(s)
    requires Inserted(s, repoId, items[1..], now, after)
    ensures Inserted(db, repoId, items, now, after)
  {
    CommitsStep(db.commits, s.commits, after.commits, items, repoId);
    UsersStep(db.users, UserWrite(items[0].author, now), UserWrite(items[0].committer, now),
              LinkedWrites(items[1..], now));
    FirstRowsCons(db.commits.Keys, repoId, items, now, s.commits, after.commits);
  }

  /** The loop `for item in commits: insert_commit(conn, repo_id, item)`,
      stopping at the first statement that raises. */
  function InsertAll(db: Store, repoId: int, items: seq<CommitItem>, now: Timestamp): (r: Result<Store, Error>)
    decreases |items|
    ensures r.Ok? ==> AllStampsParse(items)
    ensures AllStampsParse(items) && (repoId in db.repos || ShasOf(items) <= db.commits.Keys) ==> r.Ok?
    ensures r.Err? ==> r.error == BadTimestamp || r.error == ForeignKeyViolation
    ensures r.Err? && repoId in db.repos ==> r.error == BadTimestamp
    ensures r.Ok? ==> Inserted(db, repoId, items, now, r.value)
    ensures r.Ok? && Valid(db) ==> Valid(r.value)
  {
    if |items| == 0 then
      assert ShasOf(items) == {};
      Ok(db)
    else
      ShasOfCons(items);
      AllStampsParseCons(items);
      match InsertCommit(db, repoId, items[0], now)
      case Err(e) => Err(e)
      case Ok(s) =>
        var r := InsertAll(s, repoId, items[1..], now);
        if r.Ok? then
          InsertedCons(db, repoId, items, now, s, r.value);
          r
        else r
  }

  /** A batch carries at most as many distinct shas as it has items. */
  lemma {:induction false} ShasOfCard(items: seq<CommitItem>)
    ensures |ShasOf(items)| <= |items|
    decreases |items|
  {
    if |items| > 0 {
      ShasOfCons(items);
      ShasOfCard(items[1..]);
    } else {
      assert ShasOf(items) == {};
    }
  }

  /** The converse of the success condition: without its repository, the
      loop succeeds only if every sha is already stored. */
  lemma {:induction false} InsertAllNeedsRepo(db: Store, repoId: int, items: seq<CommitItem>, now: Timestamp)
    requires repoId !in db.repos
    ensures InsertAll(db, repoId, items, now).Ok? ==> ShasOf(items) <= db.commits.Keys
    decreases |items|
  {
    if |items| > 0 && InsertAll(db, repoId, items, now).Ok? {
      ShasOfCons(items);
      var s := InsertCommit(db, repoId, items[0], now).value;
      assert s.commits == db.commits;
      InsertAllNeedsRepo(s, repoId, items[1..], now);
    }
  }

  /** Every sha of a batch has a first item carrying it. */
  lemma {:induction false} FirstIndex(items: seq<CommitItem>, sha: string) returns (i: int)
    requires sha in ShasOf(items)
    ensures 0 <= i < |items| && items[i].sha == sha && sha !in ShasOf(items[..i])
    decreases |items|
  {
    ShasOfCons(items);
    if items[0].sha == sha {
      i := 0;
      assert ShasOf(items[..0]) == {};
    } else {
      var j := FirstIndex(items[1..], sha);
      i := j + 1;
      ShasOfPrefixCons(items, i);
    }
  }

  /** What a run reports: the repository and the number of commit items
      processed, duplicates included. */
  datatype IngestReport = IngestReport(repoId: int, fullName: string, processed: nat)

  /** The outcome of one transaction: the store it leaves behind, and the
      report or the error that rolled it back. */
  datatype Transaction = Transaction(after: Store, report: Result<IngestReport, Error>)

  /** `main()` once the repository and its commits have been fetched: upsert
      the repository, insert every item under its id, all in one transaction
      that commits on success and rolls back on any error. */
  function Main(db: Store, repo: RepoJson, items: seq<CommitItem>, now: Timestamp): (t: Transaction)
    ensures t.report.Err? ==> t.after == db
    // the repository row exists before the first insert, so no foreign key can fail
    ensures t.report.Ok? <==> RepoMetaOf(repo).Ok? && AllStampsParse(items)
    ensures t.report.Err? ==> t.report.error == BadTimestamp
    ensures t.report.Ok? ==> t.report.value == IngestReport(repo.id, repo.fullName, |items|)
    ensures t.report.Ok? ==>
      && repo.id in t.after.repos
      && t.after.repos[repo.id].meta == RepoMetaOf(repo).value
      && t.after.repos[repo.id].lastIngestedAt == Some(now)
    ensures t.report.Ok? ==> t.after.repos.Keys == db.repos.Keys + {repo.id}
    ensures t.report.Ok? ==> forall id :: id in db.repos && id != repo.id ==> t.after.repos[id] == db.repos[id]
    ensures t.report.Ok? && repo.id !in db.repos ==>
      t.after.repos[repo.id].isActive == DefaultActive && t.after.repos[repo.id].isPinned == DefaultPinned
    ensures t.report.Ok? && repo.id in db.repos ==>
      && t.after.repos[repo.id].isActive == db.repos[repo.id].isActive
      && t.after.repos[repo.id].isPinned == db.repos[repo.id].isPinned
    ensures t.report.Ok? ==> t.after.users == db.users + LinkedWrites(items, now)
    ensures t.report.Ok? ==> t.after.commits.Keys == db.commits.Keys + ShasOf(items)
    ensures t.report.Ok? ==> forall sha :: sha in db.commits ==> t.after.commits[sha] == db.commits[sha]
    ensures t.report.Ok? ==>
      forall sha :: sha in t.after.commits && sha !in db.commits ==> t.after.commits[sha].repoId == repo.id
    ensures t.report.Ok? ==> FirstRows(db.commits.Keys, repo.id, items, now, t.after.commits)
    ensures Valid(db) ==> Valid(t.after)
  {
    match UpsertRepo(db, repo, now)
    case Err(e) => Transaction(db, Err(e))
    case Ok(s) =>
      match InsertAll(s, repo.id, items, now)
      case Err(e) => Transaction(db, Err(e))
      case Ok(s') => Transaction(s', Ok(IngestReport(repo.id, repo.fullName, |items|)))
  }

  /** Inserting a batch whose shas are all stored already, with parseable
      dates, changes nothing but the account rows. */
  lemma {:induction false} InsertAllKnownShas(db: Store, repoId: int, items: seq<CommitItem>, now: Timestamp)
    requires AllStampsParse(items)
    requires ShasOf(items) <= db.commits.Keys
    ensures InsertAll(db, repoId, items, now) == Ok(db.(users := db.users + LinkedWrites(items, now)))
  {
    var r := InsertAll(db, repoId, items, now);
    assert r.value.commits.Keys == db.commits.Keys;
    assert r.value.commits == db.commits;
  }

  /** Re-inserting the batch a successful run inserted leaves the store as
      that run left it. */
  lemma {:induction false} InsertAllIdempotent(db: Store, repoId: int, items: seq<CommitItem>, now: Timestamp)
    requires AllStampsParse(items)
    requires repoId in db.repos || ShasOf(items) <= db.commits.Keys
    ensures InsertAll(InsertAll(db, repoId, items, now).value, repoId, items, now) == InsertAll(db, repoId, items, now)
  {
    var s := InsertAll(db, repoId, items, now).value;
    var w := LinkedWrites(items, now);
    assert s.users == db.users + w;
    InsertAllKnownShas(s, repoId, items, now);
    MergeAbsorbs(db.users, w);
    assert s.(users := s.users + w) == s;
  }

  /** Re-running the script with the same fetched repository and commits at
      the same instant reports the same and leaves the store unchanged. */
  lemma {:induction false} MainIdempotent(db: Store, repo: RepoJson, items: seq<CommitItem>, now: Timestamp)
    requires RepoMetaOf(repo).Ok? && AllStampsParse(items)
    ensures Main(Main(db, repo, items, now).after, repo, items, now) == Main(db, repo, items, now)
  {
    var s := UpsertRepo(db, repo, now).value;
    var t := Main(db, repo, items, now);
    InsertAllIdempotent(s, repo.id, items, now);
    assert t.after == InsertAll(s, repo.id, items, now).value;
    var s2 := UpsertRepo(t.after, repo, now).value;
    assert t.after.repos[repo.id] == s.repos[repo.id];
    assert s2.repos == t.after.repos;
    assert s2 == t.after;
  }
}

=== FILE: repo_management.dfy ===
/**
 * The dashboard's write endpoints: untrack (delete) a repository together
 * with its commits, and set its `is_active` or `is_pinned` flag. Each
 * targets repositories by full name and is refused with NotFound when no
 * row has that name, leaving the store as it was.
 */
module RepoManagement {
  import opened Wrappers
  import opened Schema
  import opened Collections

  /** `untrack_repo`: `DELETE FROM repos WHERE full_name = :full_name`, with
      `ON DELETE CASCADE` on `commits.repo_id` taking the deleted
      repositories' commits along. */
  function UntrackRepo(db: Store, fullName: string): (r: Result<Store, Error>)
    ensures r.Err? <==> NamedIds(db, fullName) == {}
    ensures r.Err? ==> r.error == NotFound
    ensures r.Ok? ==> r.value.users == db.users
    ensures r.Ok? ==>
      forall id :: id in r.value.repos <==> id in db.repos && db.repos[id].meta.fullName != fullName
    ensures r.Ok? ==> forall id :: id in r.value.repos ==> r.value.repos[id] == db.repos[id]
    // exactly the commits of the deleted repositories go
    ensures r.Ok? ==>
      forall sha :: sha in r.value.commits <==>
        sha in db.commits && !(db.commits[sha].repoId in db.repos
                               && db.repos[db.commits[sha].repoId].meta.fullName == fullName)
    ensures r.Ok? ==> forall sha :: sha in r.value.commits ==> r.value.commits[sha] == db.commits[sha]
    ensures r.Ok? && Valid(db) ==> Valid(r.value)
  {
    var gone := NamedIds(db, fullName);
    if gone == {} then Err(NotFound)
    else
      var repos := map id | id in db.repos && id !in gone :: db.repos[id];
      var commits := map sha | sha in db.commits && db.commits[sha].repoId !in gone :: db.commits[sha];
      Ok(Store(repos, db.users, commits))
  }

  /** A successful untrack removes at least one repository row. */
  lemma UntrackShrinks(db: Store, fullName: string)
    requires UntrackRepo(db, fullName).Ok?
    ensures |UntrackRepo(db, fullName).value.repos| < |db.repos|
  {
    var s := UntrackRepo(db, fullName).value;
    assert NamedIds(db, fullName) <= db.repos.Keys - s.repos.Keys;
    StrictSubsetCard(s.repos.Keys, db.repos.Keys);
  }

  /** The repository rows with `is_active` set on those named `fullName`. */
  function WithActive(repos: map<int, Repo>, fullName: string, isActive: bool): map<int, Repo> {
    map id | id in repos ::
      if repos[id].meta.fullName == fullName then repos[id].(isActive := isActive) else repos[id]
  }

  /** The repository rows with `is_pinned` set on those named `fullName`. */
  function WithPinned(repos: map<int, Repo>, fullName: string, isPinned: bool): map<int, Repo> {
    map id | id in repos ::
      if repos[id].meta.fullName == fullName then repos[id].(isPinned := isPinned) else repos[id]
  }

  /** `set_repo_active`: `UPDATE repos SET is_active = :is_active WHERE
      full_name = :full_name`. */
  function SetRepoActive(db: Store, fullName: string, isActive: bool): (r: Result<Store, Error>)
    ensures r.Err? <==> NamedIds(db, fullName) == {}
    ensures r.Err? ==> r.error == NotFound
    ensures r.Ok? ==> r.value.users == db.users && r.value.commits == db.commits
    ensures r.Ok? ==> r.value.repos.Keys == db.repos.Keys
    ensures r.Ok? ==> forall id :: id in db.repos && db.repos[id].meta.fullName == fullName ==>
              r.value.repos[id].isActive == isActive
    // nothing but that one flag of the named rows changes
    ensures r.Ok? ==> forall id :: id in db.repos ==>
              r.value.repos[id].(isActive := db.repos[id].isActive) == db.repos[id]
    ensures r.Ok? ==> forall id :: id in db.repos && db.repos[id].meta.fullName != fullName ==>
              r.value.repos[id] == db.repos[id]
    ensures r.Ok? && Valid(db) ==> Valid(r.value)
  {
    if NamedIds(db, fullName) == {} then Err(NotFound)
    else
      Ok(db.(repos := WithActive(db.repos, fullName, isActive)))
  }

  /** `set_repo_pinned`: `UPDATE repos SET is_pinned = :is_pinned WHERE
      full_name = :full_name`. */
  function SetRepoPinned(db: Store, fullName: string, isPinned: bool): (r: Result<Store, Error>)
    ensures r.Err? <==> NamedIds(db, fullName) == {}
    ensures r.Err? ==> r.error == NotFound
    ensures r.Ok? ==> r.value.users == db.users && r.value.commits == db.commits
    ensures r.Ok? ==> r.value.repos.Keys == db.repos.Keys
    ensures r.Ok? ==> forall id :: id in db.repos && db.repos[id].meta.fullName == fullName ==>
              r.value.repos[id].isPinned == isPinned
    // nothing but that one flag of the named rows changes
    ensures r.Ok? ==> forall id :: id in db.repos ==>
              r.value.repos[id].(isPinned := db.repos[id].isPinned) == db.repos[id]
    ensures r.Ok? ==> forall id :: id in db.repos && db.repos[id].meta.fullName != fullName ==>
              r.value.repos[id] == db.repos[id]
    ensures r.Ok? && Valid(db) ==> Valid(r.value)
  {
    if NamedIds(db, fullName) == {} then Err(NotFound)
    else
      Ok(db.(repos := WithPinned(db.repos, fullName, isPinned)))
  }

  /** Setting the active flag to the value it already has is a no-op. */
  lemma SetRepoActiveIdempotent(db: Store, fullName: string, isActive: bool)
    requires SetRepoActive(db, fullName, isActive).Ok?
    ensures SetRepoActive(SetRepoActive(db, fullName, isActive).value, fullName, isActive)
         == SetRepoActive(db, fullName, isActive)
  {
    var s := SetRepoActive(db, fullName, isActive).value;
    assert NamedIds(s, fullName) == NamedIds(db, fullName);
    var s2 := SetRepoActive(s, fullName, isActive).value;
    assert s2.repos == s.repos;
  }

  /** Setting the pinned flag to the value it already has is a no-op. */
  lemma SetRepoPinnedIdempotent(db: Store, fullName: string, isPinned: bool)
    requires SetRepoPinned(db, fullName, isPinned).Ok?
    ensures SetRepoPinned(SetRepoPinned(db, fullName, isPinned).value, fullName, isPinned)
         == SetRepoPinned(db, fullName, isPinned)
  {
    var s := SetRepoPinned(db, fullName, isPinned).value;
    assert NamedIds(s, fullName) == NamedIds(db, fullName);
    var s2 := SetRepoPinned(s, fullName, isPinned).value;
    assert s2.repos == s.repos;
  }

  /** Pinning a repository that was unpinned and then unpinning it restores
      the store. */
  lemma PinThenUnpinRestores(db: Store, fullName: string)
    requires NamedIds(db, fullName) != {}
    requires forall id :: id in NamedIds(db, fullName) ==> !db.repos[id].isPinned
    ensures SetRepoPinned(db, fullName, true).Ok?
    ensures SetRepoPinned(SetRepoPinned(db, fullName, true).value, fullName, false) == Ok(db)
  {
    var s := SetRepoPinned(db, fullName, true).value;
    assert NamedIds(s, fullName) == NamedIds(db, fullName);
    var s2 := SetRepoPinned(s, fullName, false).value;
    forall id | id in db.repos ensures s2.repos[id] == db.repos[id] {
      if db.repos[id].meta.fullName == fullName {
        assert id in NamedIds(db, fullName);
      }
    }
    assert s2.repos == db.repos;
  }

  /** Pausing a repository that was active and resuming it restores the
      store. */
  lemma PauseThenResumeRestores(db: Store, fullName: string)
    requires NamedIds(db, fullName) != {}
    requires forall id :: id in NamedIds(db, fullName) ==> db.repos[id].isActive
    ensures SetRepoActive(db, fullName, false).Ok?
    ensures SetRepoActive(SetRepoActive(db, fullName, false).value, fullName, true) == Ok(db)
  {
    var s := SetRepoActive(db, fullName, false).value;
    assert NamedIds(s, fullName) == NamedIds(db, fullName);
    var s2 := SetRepoActive(s, fullName, true).value;
    forall id | id in db.repos ensures s2.repos[id] == db.repos[id] {
      if db.repos[id].meta.fullName == fullName {
        assert id in NamedIds(db, fullName);
      }
    }
    assert s2.repos == db.repos;
  }

  lemma FlagsCommute(repos: map<int, Repo>, fullName: string, isActive: bool, isPinned: bool)
    ensures WithPinned(WithActive(repos, fullName, isActive), fullName, isPinned)
         == WithActive(WithPinned(repos, fullName, isPinned), fullName, isActive)
  {
    var ap := WithPinned(WithActive(repos, fullName, isActive), fullName, isPinned);
    var pa := WithActive(WithPinned(repos, fullName, isPinned), fullName, isActive);
    forall id | id in repos ensures ap[id] == pa[id] {
    }
  }

  /** The two flags are independent: setting them in either order gives the
      same store. */
  lemma ActiveAndPinnedCommute(db: Store, fullName: string, isActive: bool, isPinned: bool)
    requires NamedIds(db, fullName) != {}
    ensures SetRepoActive(db, fullName, isActive).Ok? && SetRepoPinned(db, fullName, isPinned).Ok?
    ensures SetRepoPinned(SetRepoActive(db, fullName, isActive).value, fullName, isPinned)
         == SetRepoActive(SetRepoPinned(db, fullName, isPinned).value, fullName, isActive)
  {
    var a := SetRepoActive(db, fullName, isActive).value;
    var p := SetRepoPinned(db, fullName, isPinned).value;
    assert NamedIds(a, fullName) == NamedIds(db, fullName);
    assert NamedIds(p, fullName) == NamedIds(db, fullName);
    FlagsCommute(db.repos, fullName, isActive, isPinned);
  }
}

=== FILE: scenarios.dfy ===
/**
 * Properties that span the writes and the dashboard queries: what pausing
 * and untracking do to the metrics, what a first ingestion leaves behind,
 * and a concrete store on which the repository drill-down of the
 * time-series endpoint does not narrow the series.
 */
module Scenarios {
  import opened Wrappers
  import opened Schema
  import opened Collections
  import opened GithubJson
  import opened GithubStore
  import opened IngestGithub
  import opened Analytics
  import opened RepoManagement

  /** Pausing drops exactly the paused repositories' commits from every
      active-only count and leaves the other commits counted. */
  lemma PauseDropsFromActiveCounts(db: Store, fullName: string, now: Timestamp, days: int, scope: Scope)
    requires SetRepoActive(db, fullName, false).Ok?
    ensures forall sha :: sha in WindowShas(SetRepoActive(db, fullName, false).value, now, days, scope) <==>
      (sha in WindowShas(db, now, days, scope)
       && db.repos[db.commits[sha].repoId].meta.fullName != fullName)
  {
    var s := SetRepoActive(db, fullName, false).value;
    forall sha ensures sha in WindowShas(s, now, days, scope) <==>
      (sha in WindowShas(db, now, days, scope)
       && db.repos[db.commits[sha].repoId].meta.fullName != fullName)
    {
      if sha in db.commits {
        var c := db.commits[sha];
        if c.repoId in db.repos {
          assert s.repos[c.repoId].(isActive := db.repos[c.repoId].isActive) == db.repos[c.repoId];
          if db.repos[c.repoId].meta.fullName == fullName {
            assert !s.repos[c.repoId].isActive;
          }
        }
      }
    }
  }

  /** The top-repository ranking and the repository table do not look at the
      active flag: pausing leaves their per-name and per-repository counts
      and the listed repositories as they were. */
  lemma PauseKeepsTopRepoAndTable(db: Store, fullName: string, now: Timestamp, days: int, search: Option<string>)
    requires SetRepoActive(db, fullName, false).Ok?
    ensures var s := SetRepoActive(db, fullName, false).value;
      && TopNames(s, now, days) == TopNames(db, now, days)
      && (forall name :: NameCommits(s, now, days, name) == NameCommits(db, now, days, name))
      && (forall id :: RepoWindowCommits(s, now, days, id) == RepoWindowCommits(db, now, days, id))
      && Listed(s, search) == Listed(db, search)
  {
    var s := SetRepoActive(db, fullName, false).value;
    assert forall id :: id in db.repos ==> s.repos[id].meta == db.repos[id].meta by {
      forall id | id in db.repos ensures s.repos[id].meta == db.repos[id].meta {
        assert s.repos[id].(isActive := db.repos[id].isActive) == db.repos[id];
      }
    }
    forall name ensures NameCommits(s, now, days, name) == NameCommits(db, now, days, name) {
      var a := set sha | sha in s.commits && TopCounted(s, now, days, s.commits[sha])
                         && s.repos[s.commits[sha].repoId].meta.fullName == name;
      var b := set sha | sha in db.commits && TopCounted(db, now, days, db.commits[sha])
                         && db.repos[db.commits[sha].repoId].meta.fullName == name;
      assert a == b;
    }
    assert TopNames(s, now, days) == TopNames(db, now, days);
    assert Listed(s, search) == Listed(db, search);
  }

  /** Once a name is untracked no metric mentions it: it forms no
      top-repository group and the table lists no repository of that name. */
  lemma UntrackRemovesFromMetrics(db: Store, fullName: string, now: Timestamp, days: int, search: Option<string>)
    requires UntrackRepo(db, fullName).Ok?
    ensures var s := UntrackRepo(db, fullName).value;
      && NamedIds(s, fullName) == {}
      && fullName !in TopNames(s, now, days)
      && NameCommits(s, now, days, fullName) == 0
      && (forall id :: id in Listed(s, search) ==> s.repos[id].meta.fullName != fullName)
  {
    var s := UntrackRepo(db, fullName).value;
    var group := set sha | sha in s.commits && TopCounted(s, now, days, s.commits[sha])
                           && s.repos[s.commits[sha].repoId].meta.fullName == fullName;
    assert group == {};
    TopNameHasCommits(s, now, days, fullName);
  }

  /** A successful run counts every fetched item as processed, but inserts a
      row only for each sha it has not stored: the commit total grows by at
      most the processed count. */
  lemma IngestGrowthBounded(db: Store, repo: RepoJson, items: seq<CommitItem>, now: Timestamp)
    requires RepoMetaOf(repo).Ok? && AllStampsParse(items)
    ensures var t := Main(db, repo, items, now);
      |db.commits| <= |t.after.commits| <= |db.commits| + t.report.value.processed
  {
    var t := Main(db, repo, items, now);
    ShasOfCard(items);
    UnionCardBound(db.commits.Keys, ShasOf(items));
    assert |t.after.commits| == |t.after.commits.Keys|;
  }

  /** The first successful run into a store without repositories or
      commits leaves one repository, active, unpinned and listed, owning
      every stored commit. */
  lemma FirstIngest(db: Store, repo: RepoJson, items: seq<CommitItem>, now: Timestamp)
    requires db.repos == map[] && db.commits == map[]
    requires RepoMetaOf(repo).Ok? && AllStampsParse(items)
    ensures var s := Main(db, repo, items, now).after;
      && ActiveRepoIds(s) == {repo.id}
      && Listed(s, None) == {repo.id}
      && !s.repos[repo.id].isPinned
      && s.commits.Keys == ShasOf(items)
      && (forall sha :: sha in s.commits ==> s.commits[sha].repoId == repo.id)
  {
    var t := Main(db, repo, items, now);
    var s := t.after;
    assert s.repos.Keys == {repo.id};
    assert s.repos[repo.id].isActive && !s.repos[repo.id].isPinned;
    assert s.commits.Keys == ShasOf(items);
    OneRepoListed(s, repo.id);
  }

  /** An item's committer date parses and lies within `days` days before
      `at`. */
  predicate DatedWithin(item: CommitItem, at: Timestamp, days: int) {
    && CommittedAt(item).Ok?
    && CommittedAt(item).value.Some?
    && CommittedAt(item).value.value >= at - days * SecondsPerDay
  }

  /** The distinct shas of a batch whose first carrying item is dated within
      the window. */
  function WindowItemShas(items: seq<CommitItem>, at: Timestamp, days: int): set<string> {
    set i | 0 <= i < |items| && items[i].sha !in ShasOf(items[..i]) && DatedWithin(items[i], at, days)
      :: items[i].sha
  }

  /** After the first run into an empty store, the repository table's window
      count for the ingested repository, asked at any instant `at`, is the
      number of distinct fetched shas whose first item is dated within the
      window: a later duplicate neither adds a commit nor changes its date. */
  lemma FirstIngestWindow(db: Store, repo: RepoJson, items: seq<CommitItem>, now: Timestamp, at: Timestamp, days: int)
    requires db.repos == map[] && db.commits == map[]
    requires RepoMetaOf(repo).Ok? && AllStampsParse(items)
    ensures RepoWindowCommits(Main(db, repo, items, now).after, at, days, repo.id)
         == |WindowItemShas(items, at, days)|
  {
    var s := Main(db, repo, items, now).after;
    assert s.commits.Keys == ShasOf(items);
    assert FirstRows({}, repo.id, items, now, s.commits);
    WindowCountOfRows(s, repo.id, items, now, at, days);
  }

  /** The window count of a repository whose commits are exactly the rows a
      batch's first items bind. */
  lemma WindowCountOfRows(s: Store, repoId: int, items: seq<CommitItem>, now: Timestamp, at: Timestamp, days: int)
    requires s.commits.Keys == ShasOf(items)
    requires FirstRows({}, repoId, items, now, s.commits)
    ensures RepoWindowCommits(s, at, days, repoId) == |WindowItemShas(items, at, days)|
  {
    var counted := set sha | sha in s.commits && s.commits[sha].repoId == repoId && InWindow(s.commits[sha], at, days);
    forall sha | sha in counted ensures sha in WindowItemShas(items, at, days) {
      var i := FirstIndex(items, sha);
      assert s.commits[sha] == CommitRowOf(repoId, items[i], CommittedAt(items[i]).value, now);
    }
    forall i | 0 <= i < |items| && items[i].sha !in ShasOf(items[..i]) && DatedWithin(items[i], at, days)
      ensures items[i].sha in counted
    {
      assert s.commits[items[i].sha] == CommitRowOf(repoId, items[i], CommittedAt(items[i]).value, now);
    }
    assert counted == WindowItemShas(items, at, days);
  }

  lemma OneRepoListed(s: Store, id: int)
    requires s.repos.Keys == {id} && s.repos[id].isActive
    ensures ActiveRepoIds(s) == {id} && Listed(s, None) == {id}
  {
    NoSearchListsAll(s);
  }

  // ---- the repository drill-down of the time-series endpoint -------------

  const DrillNow: Timestamp := 1_000_000

  /** Two active repositories; the only commit belongs to the second. */
  function DrillStore(): Store {
    var meta := RepoMeta("o/a", "o", "a", false, 0, 0, 0, None, None, None, None);
    Store(
      map[1 := Repo(1, meta, true, false, None),
          2 := Repo(2, meta.(fullName := "o/b", name := "b"), true, false, None)],
      map[],
      map["c" := Commit("c", 2, None, None, None, None, None, None, None, Some(DrillNow), None, None)])
  }

  /** Asked for "o/a", the endpoint as written finds the repository (no
      404) and returns the all-repository series, which reports the other
      repository's commit; the series of "o/a" alone is empty. */
  lemma DrillDownCountsOtherRepos()
    ensures NamedIds(DrillStore(), "o/a") == {1}
    ensures IsSeries(DrillStore(), DrillNow, 30, AllActive, [DayCount(DayOf(DrillNow), 1)])
    ensures IsSeries(DrillStore(), DrillNow, 30, OnlyRepo(1), [])
    ensures forall s :: IsSeries(DrillStore(), DrillNow, 30, AllActive, s) ==>
                        !IsSeries(DrillStore(), DrillNow, 30, OnlyRepo(1), s)
  {
    var db := DrillStore();
    var d := DayOf(DrillNow);
    assert Counted(db, DrillNow, 30, AllActive, db.commits["c"]);
    assert WindowShas(db, DrillNow, 30, AllActive) == {"c"};
    assert ShasOnDays(db, DrillNow, 30, AllActive, {d}) == {"c"};
    assert ActiveDays(db, DrillNow, 30, AllActive) == {d};
    var one := [DayCount(d, 1)];
    assert one[0].day == d;
    assert SeriesDays(one) == {d};
    assert !Counted(db, DrillNow, 30, OnlyRepo(1), db.commits["c"]);
    assert ActiveDays(db, DrillNow, 30, OnlyRepo(1)) == {};
    forall s | IsSeries(db, DrillNow, 30, AllActive, s)
      ensures !IsSeries(db, DrillNow, 30, OnlyRepo(1), s)
    {
      SeriesUnique(db, DrillNow, 30, AllActive, s, one);
      assert SeriesDays(s) == {d};
    }
  }
}

=== FILE: schema.dfy ===
/**
 * The relational state the service reads and writes: the `repos`, `users`
 * and `commits` tables, keyed by their primary keys, and the way a
 * timestamp falls into a UTC calendar day.
 */
module Schema {
  import opened Wrappers

  /** A point in time as whole seconds since the Unix epoch, UTC. */
  type Timestamp = int

  const SecondsPerDay: int := 86400

  /** The UTC calendar day holding `t`, as days since the epoch: what
      `DATE_TRUNC('day', t)::date` yields when the session time zone is UTC.
      Two instants fall on the same day exactly when they share this number. */
  function DayOf(t: Timestamp): (d: int)
    ensures d * SecondsPerDay <= t < (d + 1) * SecondsPerDay
  {
    t / SecondsPerDay
  }

  /** Why an operation was refused. */
  datatype Error =
    | NotFound             // no repository has the requested full name (HTTP 404)
    | BadTimestamp         // dateutil cannot parse the value it is given
    | ForeignKeyViolation  // a new commit row names a repository id that is not stored

  /** Column defaults the schema gives a freshly inserted repository row. */
  const DefaultActive: bool := true
  const DefaultPinned: bool := false

  /** The metadata columns that ingestion writes on both insert and update. */
  datatype RepoMeta = RepoMeta(
    fullName: string,
    ownerLogin: string,
    name: string,
    isFork: bool,
    stars: int,
    forks: int,
    openIssues: int,
    defaultBranch: Option<string>,
    createdAt: Option<Timestamp>,
    updatedAt: Option<Timestamp>,
    pushedAt: Option<Timestamp>)

  /** A `repos` row. `isActive` and `isPinned` belong to the management
      operations; ingestion never writes them on an existing row. */
  datatype Repo = Repo(
    id: int,
    meta: RepoMeta,
    isActive: bool,
    isPinned: bool,
    lastIngestedAt: Option<Timestamp>)

  /** A `users` row: a GitHub account linked from some commit. */
  datatype User = User(
    id: int,
    login: string,
    kind: Option<string>,
    siteAdmin: Option<bool>,
    lastIngestedAt: Option<Timestamp>)

  /** A `commits` row. The user ids are NULL when GitHub had no linked
      account; the free-text names and emails are kept either way. */
  datatype Commit = Commit(
    sha: string,
    repoId: int,
    authorUserId: Option<int>,
    committerUserId: Option<int>,
    authorName: Option<string>,
    authorEmail: Option<string>,
    committerName: Option<string>,
    committerEmail: Option<string>,
    message: Option<string>,
    committedAt: Option<Timestamp>,
    url: Option<string>,
    ingestedAt: Option<Timestamp>)

  /** The whole database: each table keyed by its primary key. */
  datatype Store = Store(
    repos: map<int, Repo>,
    users: map<int, User>,
    commits: map<string, Commit>)

  /** Every row sits under its own primary key, and every commit's `repo_id`
      names a stored repository (the foreign key on `commits.repo_id`). */
  predicate Valid(db: Store) {
    && (forall id :: id in db.repos ==> db.repos[id].id == id)
    && (forall id :: id in db.users ==> db.users[id].id == id)
    && (forall sha :: sha in db.commits ==>
          db.commits[sha].sha == sha && db.commits[sha].repoId in db.repos)
  }

  /** The ids of the repositories whose full name is `fullName`: the rows a
      `WHERE full_name = :full_name` clause selects. */
  function NamedIds(db: Store, fullName: string): set<int> {
    set id | id in db.repos && db.repos[id].meta.fullName == fullName
  }
}

=== FILE: wrappers.dfy ===
/**
 * Optional values and results with an error, the two shapes the model uses
 * for SQL NULL / Python None and for operations that can be refused.
 */
module Wrappers {

  /** A value that may be absent: NULL in a column, None in Python. */
  datatype Option<+T> = None | Some(value: T) {

    /** The carried value, or `default` when absent. */
    function GetOr(default: T): T {
      match this
      case Some(v) => v
      case None => default
    }
  }

  /** Either the value an operation produced or the error that stopped it;
      usable with `:-`. */
  datatype Result<+T, +E> = Ok(value: T) | Err(error: E) {

    predicate IsFailure() {
      Err?
    }

    function PropagateFailure<U>(): Result<U, E>
      requires Err?
    {
      Err(error)
    }

    function Extract(): T
      requires Ok?
    {
      value
    }
  }
}
